=== FILE: README.md ===
# Healthcare data manager: access control and dashboard state, in Dafny

This project models the core of a small patient/doctor health-record
application. It has two parts.

- An Express + MongoDB server. Patients register, log in and record
  measurements such as blood pressure, pulse, weight and blood sugar.
  Doctors read the measurements of the patients assigned to them.
- An Angular dashboard page that shows this data.

The model covers these pieces:

- the `authenticate` middleware;
- registration and login;
- the ownership checks and field merges of the measurement and patient routers;
- the public doctor list;
- the way `app.ts` mounts the routers behind or outside `authenticate`;
- the Mongoose schema rules;
- the dashboard's state updates, including how it groups a doctor's
  measurements by patient name.

Every handler is a pure function from the authenticated user (or header),
path parameters, request body and store to a `Reply`. A `Reply` holds the
HTTP status, the JSON body and the store after the call. The store
(`Db.Store`) has one sequence per collection, in MongoDB natural order.
`findOne` is therefore the first match and `find` keeps store order.

A handler's database failures are one parameter, `fault: Option<nat>`: the
position, in source order, of the operation that throws. Operations before it
take effect and later ones never run. This is how the missing rollback in
registration and the partial cascade in profile deletion show up. Mongoose
validation happens at `save()`, so a save fails on a fault or when the
document breaks its schema (`Models.UserValid`, `Models.PatientValid`,
`Models.MeasurementValid`). Mongoose's `minlength` compares JavaScript's
`.length`, which counts UTF-16 code units; Dafny strings hold Unicode scalar
values, so the schema rules measure names and passwords with
`Models.Utf16Length`, which counts a character outside the Basic
Multilingual Plane twice.

Cryptography is a record of oracles (`Tokens.Crypto`):

- `hash` stands for `bcrypt.hash`;
- `sign` and `verify` stand for `jsonwebtoken`;
- `Tokens.Compare` is `hash(password) == stored`, so a password always
  matches its own hash;
- `Tokens.SignVerifyAgree` is the one law assumed where a round trip needs it.

`App.Dispatch` composes the mounts of `app.ts` with the routers. The
measurement routes that repeat `authenticate` at route level get it run a
second time.

The dashboard (`Dashboard.State`) is the component's fields. Each callback
takes the outcome its HTTP observable delivered. `groupMeasurementsByPatient`
is modelled twice: `Grouping.GroupAsWritten` is the loop as written, which
throws on a name inherited from `Object.prototype`, and `Grouping.Group` is
the corrected loop (see Findings), which the page's callbacks use. The two
agree whenever no name is inherited. `Grouping.PatientNames` is `Object.keys`
on the result, including JavaScript's rule that array-index keys come first,
in ascending order.

## Model

| member | source | states |
|---|---|---|
| Middleware.StripBearer | server/src/middleware/auth.ts:9 | The token is the header with only the first occurrence of "Bearer " removed, wherever it occurs; a header without it is passed on whole. |
| Middleware.Authenticate | server/src/middleware/auth.ts:8-22 | Exactly one of three outcomes. The missing-token 401 comes iff the stripped token is absent or empty. The invalid-token 401 comes iff a token is present but the secret is unset or verification fails. Otherwise `next` runs with `req.user` holding only the verified subject id, never the role. No store is read. |
| Middleware.BearerAloneIsMissingToken | server/src/middleware/auth.ts:9-13 | A header of exactly "Bearer " is answered as a missing token, not an invalid one. |
| Middleware.NoHeaderIsMissingToken | server/src/middleware/auth.ts:9-13 | Without an Authorization header the answer is the missing-token 401. |
| Middleware.UnsetSecretRejectsEveryToken | server/src/middleware/auth.ts:15-21 | With JWT_SECRET unset or empty, no token gets through. |
| Middleware.StripBearerPrefixed | server/src/middleware/auth.ts:9 | "Bearer " followed by t strips to exactly t, whatever t contains. |
| Middleware.SignedTokenAuthenticates | server/src/middleware/auth.ts:15-18 | A token signed with the verifying secret passes, and `req.user` carries the signed subject. |
| AuthRoutes.Register | server/src/routes/auth.ts:11-46 | A taken email gives 400 "Az email már használatban van" with the store unchanged. 201 comes iff there is no fault, the email is fresh, a password was sent, and both documents are valid. On 201 exactly one patient account (hashed password) and one profile linked to it are appended. Every other outcome is 400 "Sikertelen regisztráció". |
| AuthRoutes.RegisterDoesNotRollBack | server/src/routes/auth.ts:29-45 | When the profile save fails after the account save, the answer is 400 and the new account stays in the store. |
| AuthRoutes.ShortPasswordPassesSchema | server/src/routes/auth.ts:21-29 | The six-character minimum is checked on the stored hash, so a one-character password registers. |
| AuthRoutes.RegisterPreservesWf | server/src/routes/auth.ts:15-40 | Registration keeps ids and emails unique and every stored document valid. |
| AuthRoutes.SubjectOf | server/src/routes/auth.ts:63-72 | A patient account resolves iff a Patient record links to it, and then to such a record; a doctor account likewise to a Doctor record; any other role resolves to nothing. |
| AuthRoutes.Login | server/src/routes/auth.ts:48-84 | An unknown email gives 400 "A felhasználó nem létezik…". A wrong password gives the distinct 400 "Hibás jelszó…". A token comes iff the email is known, a password was sent and matches, and the role record is found without a fault; its claims are the role record's id and the role, signed with `JWT_SECRET || 'secret'` for 3600 s. A known email without a password, a missing role record, or a failure of either lookup gives 500. The store never changes. |
| AuthRoutes.UnknownEmailSkipsPasswordCheck | server/src/routes/auth.ts:51-55 | For an unknown email, neither the password nor the hash oracle affects the answer. |
| AuthRoutes.DoctorLogsIn | server/src/routes/auth.ts:48-80 | On a well-formed store, a doctor account with a Doctor record and the right password gets 200 and a token for its Doctor record with the doctor role. |
| AuthRoutes.RegisteredAccountLogsIn | server/src/routes/auth.ts:48-80 | After a successful registration, logging in with the same email and password issues a token for the new profile id with the patient role. |
| MeasurementRoutes.ListOwn | server/src/routes/measurement.ts:8-28 | Without `req.user` the answer is 401. A missing caller profile gives 404. 200 comes iff there is a user, the caller's profile exists and neither read fails. On 200 the list is exactly the caller's measurements (as a multiset), newest first. Failures give 500. The store is unchanged. |
| MeasurementRoutes.Create | server/src/routes/measurement.ts:30-58 | 201 comes iff there is a user, the caller's profile exists, there is no fault and a date was given. The new record's owner is the caller whatever the body says, and appending it is the only change. Every failure gives 400 "Nem sikerült az új mérés hozzáadása" and changes nothing: a failing profile lookup, a failing save and a missing date all land in the one catch. |
| MeasurementRoutes.DoctorScope | server/src/routes/measurement.ts:64-72 | The scope is exactly the stored measurements whose patient is assigned to the doctor. |
| MeasurementRoutes.ListForDoctor | server/src/routes/measurement.ts:60-81 | A doctor without patients gets 200 with an empty list. 200 comes iff the patient read succeeds and either there are no patients or the measurement read succeeds. Otherwise the answer is the scope, populated with patient names, newest first. Failures give 500. |
| DateOrder.SortNewestFirst | server/src/routes/measurement.ts:21-22 | The result is ordered by descending date, with undated entries last, and is a permutation of the input. |
| MeasurementRoutes.Delete | server/src/routes/measurement.ts:83-101 | The answer is one of 200, 403, 404 and 500, and 404 is checked before 403. 200 comes iff the measurement exists and its owner is the caller. A failing delete of an owned record answers 500 "Szerverhiba". Success removes that id; every refusal leaves the store unchanged. |
| MeasurementRoutes.DeleteRemovesExactlyOne | server/src/routes/measurement.ts:96-97 | With unique ids, a delete removes exactly the one element and keeps the rest in order. |
| MeasurementRoutes.Merge | server/src/routes/measurement.ts:116-122 | The date is merged with `\|\|`; the four readings with `??`; id and owner never change. |
| MeasurementRoutes.ZeroOverwritesReadingsButNotDate | server/src/routes/measurement.ts:118-122 | A zero reading overwrites the stored one, but a zero date keeps the stored date. |
| MeasurementRoutes.MergeKeepsDate | server/src/routes/measurement.ts:116-124 | A stored measurement keeps a date under any merge, so an update never fails the required-date rule. |
| MeasurementRoutes.Update | server/src/routes/measurement.ts:103-129 | 404 is checked before 403. 200 comes iff nothing fails, the record exists, the caller owns it and the merged record passes the schema. A failing or schema-refused save of an owned record answers 500 "Szerverhiba". On 200 the answer is the merged record and the stored copy with that id is replaced. Every other outcome leaves the store unchanged. |
| MeasurementRoutes.CreatePreservesWf | server/src/routes/measurement.ts:44-54 | Creating a measurement with a fresh id keeps the store well formed. |
| MeasurementRoutes.DeletePreservesWf | server/src/routes/measurement.ts:96 | Deleting keeps the store well formed. |
| MeasurementRoutes.UpdateSucceedsOnOwnedRecord | server/src/routes/measurement.ts:103-129 | On a well-formed store the schema never refuses an update: 200 comes iff the record exists, the caller owns it and no database operation fails. |
| MeasurementRoutes.UpdatePreservesWf | server/src/routes/measurement.ts:116-124 | Updating keeps the store well formed. |
| PatientRoutes.PatientsForDoctor | server/src/routes/patient.ts:9-24 | 200 comes iff the read succeeds and the caller has assigned patients. On 200 the list is exactly the caller's assigned patients, in store order, each with its account email. When there are none the answer is 404 "Orvosnak nincsenek páciensei". A failure gives 500. |
| PatientRoutes.DoctorSeesExactlyAssigned | server/src/routes/patient.ts:9-24 | 200 comes iff the read succeeds and some stored patient names the caller as doctor. Every listed patient is stored and assigned to the caller, and every stored patient assigned to the caller is listed. |
| PatientRoutes.GetOwn | server/src/routes/patient.ts:26-40 | 200 comes iff the read succeeds and the caller's profile exists. On 200 the answer is the caller's own stored profile. A missing profile gives 404 "Páciens nem létezik"; a failure gives 500. |
| PatientRoutes.DeleteSelf | server/src/routes/patient.ts:42-64 | The caller's own record is looked up first (404), then the path id is compared with the caller (403); both refusals change nothing. On 200 the caller's measurements, profile and account are removed. A failing `deleteMany` answers 500 with nothing deleted; a later failure keeps what was already deleted. |
| PatientRoutes.DeleteTouchesOnlyCaller | server/src/routes/patient.ts:55-60 | After a successful delete, a stored measurement, profile or account survives iff it is not the caller's. |
| PatientRoutes.MergeProfile | server/src/routes/patient.ts:80-85 | The name, phone, birth place and birth date are merged with `\|\|`; the ids and the doctor never change. |
| PatientRoutes.EmptyFieldsKeepProfile | server/src/routes/patient.ts:82-85 | Absent or empty values leave the profile exactly as it was. |
| PatientRoutes.MergeFailsOnlyOnSuppliedValues | server/src/routes/patient.ts:80-87 | On a valid profile, the merged profile is invalid iff a supplied name is shorter than 3 UTF-16 code units or a supplied phone breaks the digit pattern. |
| PatientRoutes.UpdateSelf | server/src/routes/patient.ts:66-92 | The answer is one of 200, 403, 404 and 500, and 404 is checked before 403. 200 comes iff the merged profile is valid. A failing save, or one the schema refuses (a Mongoose ValidationError such as a bad phone), answers 500 "Szerverhiba", not 400. Only the caller's record can change, and nothing changes on a refusal. |
| PatientRoutes.DeleteSelfPreservesWf | server/src/routes/patient.ts:57-59 | Deletion keeps the store well formed, including when it stops part-way. |
| PatientRoutes.UpdateSelfPreservesWf | server/src/routes/patient.ts:80-88 | Updating a profile keeps the store well formed. |
| DoctorRoutes.ListDoctors | server/src/routes/doctor.ts:6-15 | Every stored doctor is listed in store order with its id and name. A failure gives 500 "Orvosok lekérése sikertelen". |
| DoctorRoutes.DoctorListHidesAccount | server/src/routes/doctor.ts:8-9 | Stores whose doctors differ only in their account link give the same answer, so the account id never shows. |
| DoctorRoutes.EveryDoctorListed | server/src/routes/doctor.ts:8-11 | Each stored doctor's public view appears in the list. |
| App.Dispatch | server/src/app.ts:22-25 | On the patient and measurement mounts, a middleware refusal is the answer and the store is unchanged. An unknown path gives Express's 404. |
| App.DoubleAuthenticationIsOnce | server/src/app.ts:25 | The pipeline with `authenticate` run twice on a route equals the reference pipeline that runs it once. |
| App.PublicMountsIgnoreHeader | server/src/app.ts:22-24 | Answers under /api/auth and /api/doctors do not depend on the Authorization header. |
| App.InHandlerGuardUnreachable | server/src/app.ts:25 | No measurement request is answered with the handlers' own 401 "Nincs jogosultság". |
| App.ProtectedNeedsValidToken | server/src/app.ts:23-25 | Under /api/patients and /api/measurements, a request the middleware refuses is answered 401 and changes nothing. |
| App.UnsetSecretLocksProtectedMounts | server/src/app.ts:23-25 | With JWT_SECRET unset, every protected request is answered 401 and changes nothing, while `POST /api/auth/login` still runs the login handler, which signs with the fallback secret `'secret'`. |
| App.Resolve | server/src/app.ts:22-25 | Only the four mounts have routes. Every route with its own `authenticate` sits under a mount that already runs it. `GET /doctor` is declared before `/:id`, so it never reads as an id. DELETE and PUT on one segment reach the delete and update routes of their mount. Under /api/auth only the two POSTs exist, under /api/doctors only `GET /`. |
| App.AuthRoutesReached | server/src/app.ts:22 | `POST /api/auth/register` and `POST /api/auth/login` run the register and login handlers on the request body. |
| App.OwnProfileReached | server/src/app.ts:23 | With a header `authenticate` accepts, `GET /api/patients` returns the profile of the attached user. |
| App.OwnMeasurementsReached | server/src/app.ts:25 | With a header the mount-level `authenticate` accepts, `GET` and `POST /api/measurements` run the list and create handlers with the attached user. |
| App.DoctorPatientsReached | server/src/app.ts:23 | With an accepted header, `GET /api/patients/doctor` runs the doctor's patient list for the attached user. |
| App.RegisterLoginRoundTrip | server/src/app.ts:22-23 | Registering, then logging in, then `GET /api/patients` with the issued token returns the profile just created. |
| App.DispatchPreservesWf | server/src/app.ts:22-25 | Any request keeps the store well formed, given fresh ids for new documents. |
| Models.EmailCheckMatchesPattern | server/src/models/User.ts:14 | The executable email check accepts exactly the strings in which `\S+@\S+\.\S+` occurs. |
| Models.EmailPatternIsUnanchored | server/src/models/User.ts:14 | Any text may surround a matching address. |
| Models.ValidPhone | server/src/models/Patient.ts:21-25 | A phone number the pattern `^[0-9]{9,15}$` accepts is 9 to 15 ASCII digits, and its JavaScript length is the same 9 to 15. |
| Models.UserValid | server/src/models/User.ts:9-22 | An account saves iff the email is present and matches the pattern, the stored password is present with a JavaScript length of at least 6, and the role is "patient" or "doctor". |
| Models.PatientValid | server/src/models/Patient.ts:12-27 | A profile saves iff every field is present, the name has a JavaScript length of at least 3, and the phone matches the digit pattern. |
| Models.DoctorValid | server/src/models/Doctor.ts:8-15 | A doctor profile saves iff the name is present with a JavaScript length of at least 3. |
| Models.MeasurementValid | server/src/models/Measurement.ts:12-19 | A measurement saves iff it has a date; the four readings are optional. |
| Models.AstralCharactersCountTwice | server/src/models/Doctor.ts:13 | `minlength` counts UTF-16 code units: a name of two emoji is two characters long but has length 4, so it passes the 3-character minimum. |
| Grouping.Group | client/src/app/pages/dashboard/dashboard.component.ts:299-308 | The result is a grouping of the input. Keys are distinct. Each group holds exactly the input measurements with its key, in input order, and is non-empty. Every measurement's key is present. Keys are listed in order of first occurrence. |
| Grouping.InExactlyOneGroup | client/src/app/pages/dashboard/dashboard.component.ts:301-306 | A measurement is in a group iff the group's key is its patient name. |
| Grouping.GroupKeepsCount | client/src/app/pages/dashboard/dashboard.component.ts:299-308 | The group sizes add up to the number of input measurements. |
| Grouping.UnnamedJoinsUndefined | client/src/app/pages/dashboard/dashboard.component.ts:302-306 | A measurement without a populated name shares the group of a patient named "undefined". |
| Grouping.PatientNames | client/src/app/pages/dashboard/dashboard.component.ts:430-432 | The names listed are a permutation of the group keys. Array-index keys come before every other key and in ascending numeric order; the other keys keep their insertion order. |
| Grouping.NamesInFirstSeenOrder | client/src/app/pages/dashboard/dashboard.component.ts:430-432 | When no name is an array index, the names are the keys, in the order each first appears among the measurements. |
| Grouping.ConstructorNameBreaksGrouping | client/src/app/pages/dashboard/dashboard.component.ts:303-306 | The loop as written throws on a patient named "constructor", which the corrected grouping files under its own key. |
| Grouping.AsWrittenAgreesOffPrototype | client/src/app/pages/dashboard/dashboard.component.ts:299-308 | Without names inherited from `Object.prototype`, the loop as written gives the corrected grouping. |
| Dashboard.Init | client/src/app/pages/dashboard/dashboard.component.ts:310-334 | Only the role flag can change. With a token that decodes, the flag is set iff the decoded role is "doctor". With no token the flag is unchanged. A decode failure starts no request. The doctor loads start iff the flag is set. |
| Dashboard.DoctorViewIffDoctorRole | client/src/app/pages/dashboard/dashboard.component.ts:311-315 | On a fresh page the doctor view is chosen iff a stored token decodes to role "doctor". |
| Dashboard.ForgedDoctorTokenIsRefused | client/src/app/pages/dashboard/dashboard.component.ts:311-329 | A token whose payload claims "doctor" but which the server cannot verify shows the doctor view, and both doctor requests get the invalid-token 401 with the store unchanged. |
| Dashboard.DoctorMeasurementsLoaded | client/src/app/pages/dashboard/dashboard.component.ts:318-322 | The list is the delivered data and the grouping, built with the corrected loop, is a grouping of exactly that list. |
| Dashboard.DoctorLoadAgreesOffPrototype | client/src/app/pages/dashboard/dashboard.component.ts:299-322 | When no delivered name is inherited from `Object.prototype`, the loop as written finishes and builds exactly the stored grouping. |
| Dashboard.ReloadForgetsEarlierGroups | client/src/app/pages/dashboard/dashboard.component.ts:300 | The groups after a reload do not depend on the earlier groups, and every key comes from the new data. |
| Dashboard.DoctorPatientsLoaded | client/src/app/pages/dashboard/dashboard.component.ts:327-329 | Only the patient list changes, to the delivered data. |
| Dashboard.DoctorPageShowsAssignedPatients | client/src/app/pages/dashboard/dashboard.component.ts:327-329 | With a token the server accepts, the patient list the page stores holds every stored patient assigned to the caller and no one else. |
| Dashboard.MeasurementsLoaded | client/src/app/pages/dashboard/dashboard.component.ts:336-341 | Only the measurement list changes; the groups are not rebuilt. |
| Dashboard.PatientLoaded | client/src/app/pages/dashboard/dashboard.component.ts:343-348 | Only the own profile changes, to the delivered one. |
| Dashboard.PatientPageShowsOwnData | client/src/app/pages/dashboard/dashboard.component.ts:336-348 | With a token the server accepts and no fault, the stored list is exactly the caller's measurements, newest first, and the stored profile is the caller's own record. |
| Dashboard.SubmitSucceeded | client/src/app/pages/dashboard/dashboard.component.ts:352-356 | The draft is emptied and the error cleared; nothing else changes. |
| Dashboard.SubmittedMeasurementIsListed | client/src/app/pages/dashboard/dashboard.component.ts:350-356 | After the server accepts a draft, the draft is cleared and the reload lists the stored measurement, owned by the caller. |
| Dashboard.SubmitFailed | client/src/app/pages/dashboard/dashboard.component.ts:357 | A failure always shows a non-empty message: the server's text if there is one, else "Hiba történt". Only the message changes. |
| Dashboard.DeleteMeasurement | client/src/app/pages/dashboard/dashboard.component.ts:361-371 | An unconfirmed or failed delete changes nothing. A confirmed, successful delete removes every entry with the id and keeps every other entry as often as before. Afterwards the groups, built with the corrected loop, match the list. |
| Dashboard.DeleteAgreesOffPrototype | client/src/app/pages/dashboard/dashboard.component.ts:361-371 | When no listed name is inherited from `Object.prototype`, the loop as written finishes and builds exactly the stored grouping after a delete. |
| Dashboard.DeleteKeepsOthersInOrder | client/src/app/pages/dashboard/dashboard.component.ts:365 | The entries before and after the deleted one keep their order. |
| Dashboard.StartMeasurementEdit | client/src/app/pages/dashboard/dashboard.component.ts:384-387 | Afterwards exactly the rows with the selected measurement's id render as editors. |
| Dashboard.StartPatientEdit | client/src/app/pages/dashboard/dashboard.component.ts:389-392 | Edit mode is on with the profile selected. The own profile row becomes an editor. |
| Dashboard.CancelMeasurementEdit | client/src/app/pages/dashboard/dashboard.component.ts:394-397 | Afterwards no row and no profile renders as an editor. |
| Dashboard.CancelPatientEdit | client/src/app/pages/dashboard/dashboard.component.ts:399-402 | Afterwards no row and no profile renders as an editor. |
| Dashboard.StartThenCancelIsCancel | client/src/app/pages/dashboard/dashboard.component.ts:384-402 | Starting an edit and cancelling it equals cancelling. Starting from a state that is not editing gets that state back. |
| Dashboard.ReplaceFirstWithId | client/src/app/pages/dashboard/dashboard.component.ts:408-409 | The length is kept. Only the first entry with the updated id becomes the update; later duplicates and other entries stay. With no such entry nothing changes. |
| Dashboard.SaveMeasurementEdit | client/src/app/pages/dashboard/dashboard.component.ts:404-416 | A failed save changes nothing. A successful one replaces the first entry with the id, regroups with the corrected loop, and leaves edit mode with no selection. |
| Dashboard.SaveAgreesOffPrototype | client/src/app/pages/dashboard/dashboard.component.ts:404-416 | When no listed name and not the saved one is inherited from `Object.prototype`, the loop as written finishes and builds exactly the stored grouping after a save. |
| Dashboard.SaveThenDeleteIsDelete | client/src/app/pages/dashboard/dashboard.component.ts:404-416 | Deleting an entry after saving an edit of it leaves the same list as deleting it directly. |
| Dashboard.SavePatientEditAsWritten | client/src/app/pages/dashboard/dashboard.component.ts:418-428 | On success the profile is the update and edit mode is off. The measurement selection is cleared and the profile selection is left as it was. |
| Dashboard.ProfileEditorReopens | client/src/app/pages/dashboard/dashboard.component.ts:418-428 | With the save as written, a later measurement edit also reopens the profile editor. |
| Dashboard.SavePatientEdit | client/src/app/pages/dashboard/dashboard.component.ts:418-428 | The corrected save also clears the profile selection. |
| Dashboard.SavedProfileStaysClosed | client/src/app/pages/dashboard/dashboard.component.ts:418-428 | After the corrected save, a measurement edit leaves the profile closed. The corrected save differs from the written one only in the profile selection. |
| Dashboard.EventsKeepGroupsInSync | client/src/app/pages/dashboard/dashboard.component.ts:318-416 | Every event except the patient view's own reload keeps the groups a grouping of the list, on the page with both Findings corrected. |
| Dashboard.NoNamesIffNoMeasurements | client/src/app/pages/dashboard/dashboard.component.ts:26 | With the groups in sync, the doctor view lists no names iff there are no measurements. |

## Left out

- Password hashing and token signing, verification and expiry are oracles.
  The model assumes only that a password matches its own hash, and that a
  signed token verifies under the same secret where a round trip needs it.
  Decoding the payload on the page is an oracle of its own.
- Mongoose query details. The model does not cover how `findOne({ email })`
  treats an absent email. It also does not cover cast errors on malformed
  ObjectIds, `populate` of a missing document beyond "no name/email", or
  concurrent requests. Ids are abstract strings. New ids are parameters
  assumed fresh where a lemma needs them.
- Express routing is resolved on the mount and path segments only. Case-
  and trailing-slash-insensitive matching, `express.json` parse errors and
  CORS are not modelled.
- `trackDbOperation` is treated as the identity, since it returns the
  wrapped call's result and rethrows its error. The Prometheus metrics
  (server/src/metrics.ts, server/src/metrics/dbMetrics.ts) and `/metrics` are
  left out. `routes/auth.ts` imports this wrapper from `app.ts`, which does
  not export it; the model assumes the import resolves.
- The logger, the seeder, `mongoose.connect` and `listen` are I/O.
- On the page, local storage, `window.confirm`, `console.error`, logout and
  the service wrappers are not modelled. `confirm` and the server outcome
  are parameters of the callbacks. `deletePatient` only logs out on success
  and is not modelled. The templates are represented only by the predicates
  `EditingMeasurement` and `EditingProfile` and by the empty-list heading.
- Numbers are JavaScript floats. The readings and dates are integers here;
  dates serve only as timestamps for ordering and truthiness.
- The Doctor schema rule (`Models.DoctorValid`) is stated but exercised only
  through the store invariant, because no modelled route creates or changes
  doctors.
- DateOrder.SortNewestFirst: promises ordering and permutation only, not
  which of two equal dates comes first, because MongoDB leaves that order
  unspecified.
- MeasurementRoutes.ListOwn: states the list as a multiset plus its order,
  not its exact sequence, for the same reason.
- MeasurementRoutes.ListForDoctor: same as `ListOwn`.
- Dashboard.DoctorMeasurementsLoaded: uses the corrected grouping. The
  source throws on a name inherited from `Object.prototype` and keeps a
  partial grouping (see Findings); `Dashboard.DoctorLoadAgreesOffPrototype`
  shows the two agree on every other input.
- Dashboard.DeleteMeasurement: uses the corrected grouping, as above; the
  source's regrouping at line 366 can throw. `Dashboard.DeleteAgreesOffPrototype`
  covers the other inputs.
- Dashboard.SaveMeasurementEdit: uses the corrected grouping. On an inherited
  name the source throws at line 410, before it leaves edit mode, so the
  editor stays open. `Dashboard.SaveAgreesOffPrototype` covers the other
  inputs.
- Dashboard.EventsKeepGroupsInSync: holds for the page with both Findings
  corrected (`Grouping.Group` and `Dashboard.SavePatientEdit`), not for the
  source, whose grouping breaks on inherited names.
- Middleware.UnsetSecretRejectsEveryToken: assumes `jwt.verify` throws when
  the secret is undefined or empty, as jsonwebtoken 9 does. Older versions
  accepted unsigned `alg: none` tokens without a secret. The package version
  is not part of this model.
- Dashboard.SubmitFailed: covers error responses with a JSON body. When the
  error body is empty, `err.error` is null and reading `.error` throws, so the
  message stays as it was. The model always sets a message.
- Db lookups: state only that a returned document matches. They do not say
  it is the first match. Every lookup in the model is by a key unique under
  `Db.Wf`.

## Findings

| source | as written | input that shows it | evidently intended | confidence | as-written member | corrected member |
|---|---|---|---|---|---|---|
| client/src/app/pages/dashboard/dashboard.component.ts:303-306 | `!this.groupedMeasurements[name]` also finds members inherited from `Object.prototype`. No array is created for such a name, and the following `.push` throws a TypeError. | one measurement whose patient is named "constructor" (a valid name of at least 3 characters) | create a group for every name not yet an own key, so each measurement is grouped | high; not executed | Grouping.ConstructorNameBreaksGrouping | Grouping.Group |
| client/src/app/pages/dashboard/dashboard.component.ts:424 | After a successful profile save, `selectedMeasurement` is cleared instead of `selectedPatient`. | start a profile edit, save it, then start editing a measurement: the profile row turns into an editor again | clear `selectedPatient`, as `cancelPatientEdit` does | medium; not executed; the component test checks only that `selectedMeasurement` is cleared, and the profile row opens its editor on `editMode && selectedPatient?._id === patient._id` (dashboard.component.ts:97) | Dashboard.ProfileEditorReopens | Dashboard.SavedProfileStaysClosed |

=== FILE: app.dfy ===
/** The Express application: which router a request reaches, and which
    requests pass through `authenticate` first. `/api/auth` and
    `/api/doctors` are public; `/api/patients` and `/api/measurements` run
    `authenticate` for every request under them, and several of their routes
    run it a second time. */
module App {
  import opened Common
  import opened Models
  import opened Db
  import opened Tokens
  import opened Http
  import opened Middleware
  import AuthRoutes
  import PatientRoutes
  import DoctorRoutes
  import MeasurementRoutes

  const AuthMount: string := "/api/auth"
  const PatientsMount: string := "/api/patients"
  const DoctorsMount: string := "/api/doctors"
  const MeasurementsMount: string := "/api/measurements"

  datatype Method = Get | Post | Put | Delete

  /** A request: the mount prefix, the path segments after it (`[]` for
      `/`), the `Authorization` header and the parsed JSON body. */
  datatype Request = Request(
    verb: Method,
    mount: string,
    path: seq<string>,
    authorization: Option<string>,
    body: RequestBody)

  /** Ids MongoDB would generate for new documents in this request. */
  datatype FreshIds = FreshIds(userId: Id, patientId: Id, measurementId: Id)

  /** What a request depends on besides itself and the store: the
      configured `JWT_SECRET`, the crypto oracles, fresh ids and which
      database operation (if any) fails. */
  datatype Env = Env(jwtSecret: Option<string>, crypto: Crypto, ids: FreshIds, fault: Fault)

  /** Routes whose handler runs without a route-level `authenticate`. */
  datatype OpenRoute =
    | RegisterRoute | LoginRoute | DoctorListRoute
    | OwnMeasurementsRoute | CreateMeasurementRoute

  /** Routes declared as `router.<verb>(path, authenticate, handler)`. */
  datatype GatedRoute =
    | DoctorPatientsRoute | OwnProfileRoute
    | DeleteProfileRoute(profileId: Id) | UpdateProfileRoute(profileId: Id)
    | DoctorMeasurementsRoute
    | DeleteMeasurementRoute(measurementId: Id) | UpdateMeasurementRoute(measurementId: Id)

  datatype Route = Open(open: OpenRoute) | Gated(gated: GatedRoute)

  /** Mounts with `authenticate` in front of the router. */
  predicate Protected(mount: string) {
    mount == PatientsMount || mount == MeasurementsMount
  }

  /** A `/:id` segment. */
  predicate IsParam(path: seq<string>) {
    |path| == 1 && path[0] != ""
  }

  /** Route matching inside each router, in declaration order: a literal
      segment such as `doctor` is tried before `/:id` for the same verb. */
  function Resolve(verb: Method, mount: string, path: seq<string>): (r: Option<Route>)
    ensures r.Some? ==> mount in {AuthMount, DoctorsMount, PatientsMount, MeasurementsMount}
    // Every route-level `authenticate` sits under a mount-level one.
    ensures r.Some? && r.value.Gated? ==> Protected(mount)
    // `/doctor` is declared before `/:id`, so a GET never reads it as an id.
    ensures verb == Get && path == ["doctor"] && Protected(mount) ==>
      r == Some(Gated(if mount == PatientsMount then DoctorPatientsRoute else DoctorMeasurementsRoute))
    // DELETE and PUT on a single non-empty segment of a protected mount
    // reach the route for that id.
    ensures Protected(mount) && IsParam(path) && verb in {Delete, Put} ==>
      && r.Some? && r.value.Gated?
      && r.value.gated.DeleteProfileRoute? == (mount == PatientsMount && verb == Delete)
      && r.value.gated.UpdateProfileRoute? == (mount == PatientsMount && verb == Put)
      && r.value.gated.DeleteMeasurementRoute? == (mount == MeasurementsMount && verb == Delete)
      && r.value.gated.UpdateMeasurementRoute? == (mount == MeasurementsMount && verb == Put)
    ensures mount == AuthMount ==>
      (r.Some? <==> verb == Post && (path == ["register"] || path == ["login"]))
    ensures mount == DoctorsMount ==> (r.Some? <==> verb == Get && path == [])
  {
    if mount == AuthMount then
      if verb == Post && path == ["register"] then Some(Open(RegisterRoute))
      else if verb == Post && path == ["login"] then Some(Open(LoginRoute))
      else None
    else if mount == DoctorsMount then
      if verb == Get && path == [] then Some(Open(DoctorListRoute)) else None
    else if mount == PatientsMount then
      if verb == Get && path == ["doctor"] then Some(Gated(DoctorPatientsRoute))
      else if verb == Get && path == [] then Some(Gated(OwnProfileRoute))
      else if verb == Delete && IsParam(path) then Some(Gated(DeleteProfileRoute(path[0])))
      else if verb == Put && IsParam(path) then Some(Gated(UpdateProfileRoute(path[0])))
      else None
    else if mount == MeasurementsMount then
      if verb == Get && path == [] then Some(Open(OwnMeasurementsRoute))
      else if verb == Post && path == [] then Some(Open(CreateMeasurementRoute))
      else if verb == Get && path == ["doctor"] then Some(Gated(DoctorMeasurementsRoute))
      else if verb == Delete && IsParam(path) then Some(Gated(DeleteMeasurementRoute(path[0])))
      else if verb == Put && IsParam(path) then Some(Gated(UpdateMeasurementRoute(path[0])))
      else None
    else None
  }

  function HandleOpen(route: OpenRoute, user: Option<AuthUser>, body: RequestBody, st: Store, env: Env): Reply {
    match route
    case RegisterRoute =>
      AuthRoutes.Register(body, env.ids.userId, env.ids.patientId, st, env.fault, env.crypto)
    case LoginRoute => AuthRoutes.Login(body, st, env.fault, env.jwtSecret, env.crypto)
    case DoctorListRoute => DoctorRoutes.ListDoctors(st, env.fault)
    case OwnMeasurementsRoute => MeasurementRoutes.ListOwn(user, st, env.fault)
    case CreateMeasurementRoute =>
      MeasurementRoutes.Create(user, body, env.ids.measurementId, st, env.fault)
  }

  function HandleGated(route: GatedRoute, user: AuthUser, body: RequestBody, st: Store, env: Env): Reply {
    match route
    case DoctorPatientsRoute => PatientRoutes.PatientsForDoctor(user, st, env.fault)
    case OwnProfileRoute => PatientRoutes.GetOwn(user, st, env.fault)
    case DeleteProfileRoute(id) => PatientRoutes.DeleteSelf(user, id, st, env.fault)
    case UpdateProfileRoute(id) => PatientRoutes.UpdateSelf(user, id, body, st, env.fault)
    case DoctorMeasurementsRoute => MeasurementRoutes.ListForDoctor(user, st, env.fault)
    case DeleteMeasurementRoute(id) => MeasurementRoutes.Delete(user, id, st, env.fault)
    case UpdateMeasurementRoute(id) => MeasurementRoutes.Update(user, id, body, st, env.fault)
  }

  /** Express's fallback when no route matches. */
  function NotFound(st: Store): Reply {
    Reply(Response(404, NoRoute), st)
  }

  function Gatekeeper(req: Request, env: Env): Gate {
    Authenticate(req.authorization, env.jwtSecret, env.crypto)
  }

  /** After the mount-level step: the route, run with the user (if any)
      the mount-level `authenticate` attached. */
  function RunRoute(req: Request, user: Option<AuthUser>, st: Store, env: Env): Reply {
    match Resolve(req.verb, req.mount, req.path)
    case None => NotFound(st)
    case Some(Open(r)) => HandleOpen(r, user, req.body, st, env)
    case Some(Gated(r)) =>
      match Gatekeeper(req, env)
      case Respond(resp) => Reply(resp, st)
      case Next(u) => HandleGated(r, u, req.body, st, env)
  }

  /** The whole pipeline for one request. */
  function Dispatch(req: Request, st: Store, env: Env): (r: Reply)
    // A protected mount answers the middleware's 401 without touching the store.
    ensures Protected(req.mount) && Gatekeeper(req, env).Respond? ==>
      r == Reply(Gatekeeper(req, env).response, st)
    // An unknown route changes nothing.
    ensures Resolve(req.verb, req.mount, req.path).None? && !(Protected(req.mount) && Gatekeeper(req, env).Respond?) ==>
      r == NotFound(st)
  {
    if Protected(req.mount) then
      match Gatekeeper(req, env)
      case Respond(resp) => Reply(resp, st)
      case Next(u) => RunRoute(req, Some(u), st, env)
    else RunRoute(req, None, st, env)
  }

  /** A reference pipeline with `authenticate` applied once per request:
      protected mounts, and gated routes on public mounts (there are none). */
  function DispatchOnce(req: Request, st: Store, env: Env): Reply {
    var route := Resolve(req.verb, req.mount, req.path);
    var needsGate := Protected(req.mount) || (route.Some? && route.value.Gated?);
    if needsGate && Gatekeeper(req, env).Respond? then Reply(Gatekeeper(req, env).response, st)
    else
      match route
      case None => NotFound(st)
      case Some(Open(r)) =>
        HandleOpen(r, if needsGate then Some(Gatekeeper(req, env).user) else None, req.body, st, env)
      case Some(Gated(r)) => HandleGated(r, Gatekeeper(req, env).user, req.body, st, env)
  }

  /** Running `authenticate` twice gives the same verdict and the same
      `req.user` as running it once. */
  lemma DoubleAuthenticationIsOnce(req: Request, st: Store, env: Env)
    ensures Dispatch(req, st, env) == DispatchOnce(req, st, env)
  {
  }

  /** `/api/auth` and `/api/doctors` never look at the `Authorization` header. */
  lemma PublicMountsIgnoreHeader(req: Request, header: Option<string>, st: Store, env: Env)
    requires req.mount == AuthMount || req.mount == DoctorsMount
    ensures Dispatch(req, st, env) == Dispatch(req.(authorization := header), st, env)
  {
  }

  /** No handler reached with a user answers the handlers' own 401. */
  lemma OpenHandlersNeverForbid(r: OpenRoute, u: AuthUser, body: RequestBody, st: Store, env: Env)
    ensures HandleOpen(r, Some(u), body, st, env).response != Error(401, ForbiddenMsg)
  {
    match r
    case RegisterRoute =>
    case LoginRoute =>
    case DoctorListRoute =>
    case OwnMeasurementsRoute =>
      assert MeasurementRoutes.ListOwn(Some(u), st, env.fault).response.status != 401;
    case CreateMeasurementRoute =>
  }

  lemma GatedHandlersNeverForbid(r: GatedRoute, u: AuthUser, body: RequestBody, st: Store, env: Env)
    ensures HandleGated(r, u, body, st, env).response != Error(401, ForbiddenMsg)
  {
    match r
    case DoctorPatientsRoute =>
    case OwnProfileRoute =>
    case DeleteProfileRoute(id) =>
    case UpdateProfileRoute(id) =>
    case DoctorMeasurementsRoute =>
    case DeleteMeasurementRoute(id) =>
    case UpdateMeasurementRoute(id) =>
  }

  /** Behind the mount-level `authenticate`, the measurement handlers'
      own `!req.user` check never fires: no measurement request gets the
      401 "Nincs jogosultság". */
  lemma InHandlerGuardUnreachable(req: Request, st: Store, env: Env)
    requires req.mount == MeasurementsMount
    ensures Dispatch(req, st, env).response != Error(401, ForbiddenMsg)
  {
    if Gatekeeper(req, env).Next? {
      var u := Gatekeeper(req, env).user;
      match Resolve(req.verb, req.mount, req.path)
      case None =>
      case Some(Open(r)) => OpenHandlersNeverForbid(r, u, req.body, st, env);
      case Some(Gated(r)) => GatedHandlersNeverForbid(r, u, req.body, st, env);
    }
  }

  /** A protected request without a valid token is answered 401 and changes nothing. */
  lemma ProtectedNeedsValidToken(req: Request, st: Store, env: Env)
    requires Protected(req.mount)
    requires !Gatekeeper(req, env).Next?
    ensures Dispatch(req, st, env).store == st
    ensures Dispatch(req, st, env).response.status == 401
  {
  }

  /** Without `JWT_SECRET` login still signs tokens (with `'secret'`), but no
      protected request ever reaches a handler. */
  lemma UnsetSecretLocksProtectedMounts(req: Request, st: Store, env: Env)
    requires Protected(req.mount) && !TruthyStr(env.jwtSecret)
    ensures Dispatch(req, st, env).store == st
    ensures Dispatch(req, st, env).response.status == 401
    ensures Dispatch(Request(Post, AuthMount, ["login"], req.authorization, req.body), st, env)
         == AuthRoutes.Login(req.body, st, env.fault, env.jwtSecret, env.crypto)
    ensures SigningSecret(env.jwtSecret) == "secret"
  {
    UnsetSecretRejectsEveryToken(req.authorization, env.jwtSecret, env.crypto);
    PublicMountsIgnoreHeader(Request(Post, AuthMount, ["login"], req.authorization, req.body), None, st, env);
    AuthRoutesReached(req.body, st, env);
  }

  /** `POST /api/auth/register` and `POST /api/auth/login` reach their handlers. */
  lemma AuthRoutesReached(body: RequestBody, st: Store, env: Env)
    ensures Dispatch(Request(Post, AuthMount, ["register"], None, body), st, env)
         == AuthRoutes.Register(body, env.ids.userId, env.ids.patientId, st, env.fault, env.crypto)
    ensures Dispatch(Request(Post, AuthMount, ["login"], None, body), st, env)
         == AuthRoutes.Login(body, st, env.fault, env.jwtSecret, env.crypto)
  {
  }

  /** `GET /api/patients` with a header the middleware accepts reads the
      profile of the attached user. */
  lemma OwnProfileReached(header: Option<string>, body: RequestBody, st: Store, env: Env)
    requires Authenticate(header, env.jwtSecret, env.crypto).Next?
    ensures Dispatch(Request(Get, PatientsMount, [], header, body), st, env)
         == PatientRoutes.GetOwn(Authenticate(header, env.jwtSecret, env.crypto).user, st, env.fault)
  {
    var get := Request(Get, PatientsMount, [], header, body);
    assert Resolve(get.verb, get.mount, get.path) == Some(Gated(OwnProfileRoute));
  }

  /** `GET` and `POST /api/measurements` with a header the middleware accepts
      reach the list and create handlers with the attached user. */
  lemma OwnMeasurementsReached(header: Option<string>, body: RequestBody, st: Store, env: Env)
    requires Authenticate(header, env.jwtSecret, env.crypto).Next?
    ensures Dispatch(Request(Get, MeasurementsMount, [], header, body), st, env)
         == MeasurementRoutes.ListOwn(Some(Authenticate(header, env.jwtSecret, env.crypto).user), st, env.fault)
    ensures Dispatch(Request(Post, MeasurementsMount, [], header, body), st, env)
         == MeasurementRoutes.Create(Some(Authenticate(header, env.jwtSecret, env.crypto).user), body,
                                     env.ids.measurementId, st, env.fault)
  {
    assert Resolve(Get, MeasurementsMount, []) == Some(Open(OwnMeasurementsRoute));
    assert Resolve(Post, MeasurementsMount, []) == Some(Open(CreateMeasurementRoute));
  }

  /** `GET /api/patients/doctor` with a header the middleware accepts reads
      the patients of the attached user. */
  lemma DoctorPatientsReached(header: Option<string>, body: RequestBody, st: Store, env: Env)
    requires Authenticate(header, env.jwtSecret, env.crypto).Next?
    ensures Dispatch(Request(Get, PatientsMount, ["doctor"], header, body), st, env)
         == PatientRoutes.PatientsForDoctor(Authenticate(header, env.jwtSecret, env.crypto).user, st, env.fault)
  {
    assert Resolve(Get, PatientsMount, ["doctor"]) == Some(Gated(DoctorPatientsRoute));
  }

  /** Register, then log in with the same credentials, then read the own
      profile with the issued token: the profile read is the one just
      created. The subject in the token is the profile id, and it is what
      `req.user.userId` carries. */
  lemma RegisterLoginRoundTrip(body: RequestBody, creds: RequestBody, other: RequestBody, st: Store, env: Env)
    requires env.fault == None && TruthyStr(env.jwtSecret)
    requires SignVerifyAgree(env.crypto, env.jwtSecret.value)
    requires forall i :: 0 <= i < |st.patients| ==>
      st.patients[i].id != env.ids.patientId && st.patients[i].userId != env.ids.userId
    requires creds.email == body.email && creds.password == body.password
    requires Dispatch(Request(Post, AuthMount, ["register"], None, body), st, env).response.status == 201
    ensures var st1 := Dispatch(Request(Post, AuthMount, ["register"], None, body), st, env).store;
            var login := Dispatch(Request(Post, AuthMount, ["login"], None, creds), st1, env);
            && login.response.status == 200 && login.response.body.TokenBody?
            && Authenticate(Some(BearerPrefix + login.response.body.token), env.jwtSecret, env.crypto)
               == Next(AuthUser(env.ids.patientId))
            && Dispatch(Request(Get, PatientsMount, [], Some(BearerPrefix + login.response.body.token), other), st1, env)
               == Reply(Response(200, PatientBody(AuthRoutes.NewProfile(body, env.ids.patientId, env.ids.userId))), st1)
  {
    var profile := AuthRoutes.NewProfile(body, env.ids.patientId, env.ids.userId);
    AuthRoutesReached(body, st, env);
    var st1 := AuthRoutes.Register(body, env.ids.userId, env.ids.patientId, st, None, env.crypto).store;
    AuthRoutesReached(creds, st1, env);
    AuthRoutes.RegisteredAccountLogsIn(body, creds, env.ids.userId, env.ids.patientId, st, env.jwtSecret, env.crypto);
    var claims := Claims(env.ids.patientId, PatientRole);
    var token := env.crypto.sign(claims, env.jwtSecret.value, TokenLifetimeSeconds);
    SignedTokenAuthenticates(env.crypto, env.jwtSecret.value, claims);
    OwnProfileReached(Some(BearerPrefix + token), other, st1, env);
    PatientByIdAppended(st.patients, profile, st1);
  }

  /** The ids a request would generate are not in use yet. */
  ghost predicate IdsFresh(st: Store, ids: FreshIds) {
    && (forall i :: 0 <= i < |st.users| ==> st.users[i].id != ids.userId)
    && (forall i :: 0 <= i < |st.patients| ==> st.patients[i].id != ids.patientId)
    && (forall i :: 0 <= i < |st.measurements| ==> st.measurements[i].id != ids.measurementId)
  }

  lemma HandleOpenPreservesWf(r: OpenRoute, user: Option<AuthUser>, body: RequestBody, st: Store, env: Env)
    requires Wf(st) && IdsFresh(st, env.ids)
    ensures Wf(HandleOpen(r, user, body, st, env).store)
  {
    match r
    case RegisterRoute =>
      AuthRoutes.RegisterPreservesWf(body, env.ids.userId, env.ids.patientId, st, env.fault, env.crypto);
    case CreateMeasurementRoute =>
      MeasurementRoutes.CreatePreservesWf(user, body, env.ids.measurementId, st, env.fault);
    case _ =>
  }

  lemma HandleGatedPreservesWf(r: GatedRoute, u: AuthUser, body: RequestBody, st: Store, env: Env)
    requires Wf(st)
    ensures Wf(HandleGated(r, u, body, st, env).store)
  {
    match r
    case DeleteProfileRoute(id) => PatientRoutes.DeleteSelfPreservesWf(u, id, st, env.fault);
    case UpdateProfileRoute(id) => PatientRoutes.UpdateSelfPreservesWf(u, id, body, st, env.fault);
    case DeleteMeasurementRoute(id) => MeasurementRoutes.DeletePreservesWf(u, id, st, env.fault);
    case UpdateMeasurementRoute(id) => MeasurementRoutes.UpdatePreservesWf(u, id, body, st, env.fault);
    case _ =>
  }

  /** Every request keeps the store well formed, given that the ids it would
      generate are fresh. */
  lemma DispatchPreservesWf(req: Request, st: Store, env: Env)
    requires Wf(st) && IdsFresh(st, env.ids)
    ensures Wf(Dispatch(req, st, env).store)
  {
    if !(Protected(req.mount) && Gatekeeper(req, env).Respond?) {
      var user := if Protected(req.mount) then Some(Gatekeeper(req, env).user) else None;
      match Resolve(req.verb, req.mount, req.path)
      case None =>
      case Some(Open(r)) => HandleOpenPreservesWf(r, user, req.body, st, env);
      case Some(Gated(r)) =>
        if Gatekeeper(req, env).Next? {
          HandleGatedPreservesWf(r, Gatekeeper(req, env).user, req.body, st, env);
        }
    }
  }
}

=== FILE: authroutes.dfy ===
/** `POST /register` and `POST /login`: credential verification, account and
    profile creation, and token issuance. Database operations are numbered in
    source order for the `fault` parameter. */
module AuthRoutes {
  import opened Common
  import opened Models
  import opened Db
  import opened Tokens
  import opened Http

  /** The account `register` creates: always a patient, storing the hash. */
  function NewAccount(body: RequestBody, password: string, userId: Id, crypto: Crypto): User {
    User(userId, body.email, crypto.hash(password), PatientRole)
  }

  /** The profile `register` creates, linked to the new account. */
  function NewProfile(body: RequestBody, patientId: Id, userId: Id): Patient {
    Patient(patientId, userId, body.fullName, body.birthDate, body.birthPlace, body.phone, body.doctorId)
  }

  /** `POST /register`. Operations: 0 `User.findOne`, 1 `newUser.save`,
      2 `newPatient.save`. A save fails on a fault or when the document is
      invalid for its schema; `bcrypt.hash` throws on a missing password.
      Every failure except a taken email lands in the one `catch`. */
  function Register(body: RequestBody, userId: Id, patientId: Id, st: Store, fault: Fault, crypto: Crypto): (r: Reply)
    // A taken email is refused and nothing is written.
    ensures !FailsAt(fault, 0) && UserByEmail(st, body.email).Some? ==>
      r == Reply(Error(400, EmailTakenMsg), st)
    // Success is exactly: no fault, a fresh email, a password, and both documents valid.
    ensures r.response.status == 201 <==>
      && !FailsAt(fault, 0) && !FailsAt(fault, 1) && !FailsAt(fault, 2)
      && UserByEmail(st, body.email).None? && body.password.Some?
      && UserValid(NewAccount(body, body.password.value, userId, crypto))
      && PatientValid(NewProfile(body, patientId, userId))
    // On success one account and one linked profile are added, nothing else.
    ensures r.response.status == 201 ==>
      && r.response.body == MessageBody(RegisteredMsg)
      && r.store == st.(users := st.users + [NewAccount(body, body.password.value, userId, crypto)],
                        patients := st.patients + [NewProfile(body, patientId, userId)])
    // Every other outcome is a 400, with the generic message unless the email was taken.
    ensures r.response.status != 201 ==> r.response.status == 400
    ensures r.response.status == 400 && r.response != Error(400, EmailTakenMsg) ==>
      r.response == Error(400, RegisterFailedMsg)
    // Whatever happens, at most the new account was appended, and it is a patient.
    ensures r.store.patients == st.patients || r.store.patients == st.patients + [NewProfile(body, patientId, userId)]
    ensures r.store.doctors == st.doctors && r.store.measurements == st.measurements
    ensures r.store.users == st.users ||
      (body.password.Some? && r.store.users == st.users + [NewAccount(body, body.password.value, userId, crypto)])
  {
    if FailsAt(fault, 0) then Reply(Error(400, RegisterFailedMsg), st)
    else if UserByEmail(st, body.email).Some? then Reply(Error(400, EmailTakenMsg), st)
    else if body.password.None? then Reply(Error(400, RegisterFailedMsg), st)
    else
      var user := NewAccount(body, body.password.value, userId, crypto);
      if FailsAt(fault, 1) || !UserValid(user) then Reply(Error(400, RegisterFailedMsg), st)
      else
        var withUser := st.(users := st.users + [user]);
        var patient := NewProfile(body, patientId, userId);
        if FailsAt(fault, 2) || !PatientValid(patient) then Reply(Error(400, RegisterFailedMsg), withUser)
        else Reply(Response(201, MessageBody(RegisteredMsg)), withUser.(patients := st.patients + [patient]))
  }

  /** The role record a login resolves, per role; `None` when there is none
      (or the role is neither, leaving `user_type` undefined). */
  function SubjectOf(st: Store, u: User): (r: Option<Id>)
    ensures r.Some? && u.role == PatientRole ==>
      exists p :: p in st.patients && p.id == r.value && p.userId == u.id
    ensures r.Some? && u.role == DoctorRole ==>
      exists d :: d in st.doctors && d.id == r.value && d.userId == u.id
    ensures r.Some? ==> u.role == PatientRole || u.role == DoctorRole
    // An account of either role resolves whenever its role record exists.
    ensures u.role == PatientRole ==> (r.Some? <==> exists p :: p in st.patients && p.userId == u.id)
    ensures u.role == DoctorRole ==> (r.Some? <==> exists d :: d in st.doctors && d.userId == u.id)
  {
    if u.role == PatientRole then
      match PatientByUserId(st, u.id)
      case None => None
      case Some(p) => Some(p.id)
    else if u.role == DoctorRole then
      match DoctorByUserId(st, u.id)
      case None => None
      case Some(d) => Some(d.id)
    else None
  }

  /** `POST /login`. Operations: 0 `User.findOne`, 1 the role-record lookup.
      `env` is `process.env.JWT_SECRET`. Any exception, including reading
      `_id` of a missing role record, is the 500. */
  function Login(body: RequestBody, st: Store, fault: Fault, env: Option<string>, crypto: Crypto): (r: Reply)
    ensures r.store == st
    ensures FailsAt(fault, 0) ==> r.response == Error(500, LoginFailedMsg)
    ensures !FailsAt(fault, 0) && UserByEmail(st, body.email).None? ==>
      r.response == Error(400, UnknownUserMsg)
    ensures !FailsAt(fault, 0) && UserByEmail(st, body.email).Some? && body.password.Some?
            && !Compare(crypto, body.password.value, UserByEmail(st, body.email).value.password) ==>
      r.response == Error(400, WrongPasswordMsg)
    // A token is issued only for a known email with a matching password, and
    // its subject is the role record's id, signed together with the role.
    ensures r.response.status == 200 ==>
      && UserByEmail(st, body.email).Some? && body.password.Some?
      && Compare(crypto, body.password.value, UserByEmail(st, body.email).value.password)
      && SubjectOf(st, UserByEmail(st, body.email).value).Some?
      && r.response.body == TokenBody(crypto.sign(
           Claims(SubjectOf(st, UserByEmail(st, body.email).value).value,
                  UserByEmail(st, body.email).value.role),
           SigningSecret(env), TokenLifetimeSeconds))
    // A token comes exactly when the email is known, the password matches,
    // and the role record is found without a fault.
    ensures r.response.status == 200 <==>
      && !FailsAt(fault, 0) && UserByEmail(st, body.email).Some? && body.password.Some?
      && Compare(crypto, body.password.value, UserByEmail(st, body.email).value.password)
      && !FailsAt(fault, 1) && SubjectOf(st, UserByEmail(st, body.email).value).Some?
    // A known email without a password makes `bcrypt.compare` throw: the 500.
    ensures !FailsAt(fault, 0) && UserByEmail(st, body.email).Some? && body.password.None? ==>
      r.response == Error(500, LoginFailedMsg)
    // A failing role-record lookup gets the generic 500.
    ensures !FailsAt(fault, 0) && UserByEmail(st, body.email).Some? && body.password.Some?
            && Compare(crypto, body.password.value, UserByEmail(st, body.email).value.password)
            && (UserByEmail(st, body.email).value.role == PatientRole
                || UserByEmail(st, body.email).value.role == DoctorRole)
            && FailsAt(fault, 1) ==>
      r.response == Error(500, LoginFailedMsg)
    // A verified user without a role record gets the generic 500.
    ensures !FailsAt(fault, 0) && UserByEmail(st, body.email).Some? && body.password.Some?
            && Compare(crypto, body.password.value, UserByEmail(st, body.email).value.password)
            && SubjectOf(st, UserByEmail(st, body.email).value).None? ==>
      r.response == Error(500, LoginFailedMsg)
    ensures r.response.status in {200, 400, 500}
  {
    if FailsAt(fault, 0) then Reply(Error(500, LoginFailedMsg), st)
    else match UserByEmail(st, body.email)
      case None => Reply(Error(400, UnknownUserMsg), st)
      case Some(u) =>
        if body.password.None? then Reply(Error(500, LoginFailedMsg), st)
        else if !Compare(crypto, body.password.value, u.password) then Reply(Error(400, WrongPasswordMsg), st)
        else if (u.role == PatientRole || u.role == DoctorRole) && FailsAt(fault, 1) then
          Reply(Error(500, LoginFailedMsg), st)
        else match SubjectOf(st, u)
          case None => Reply(Error(500, LoginFailedMsg), st)
          case Some(subject) =>
            var token := crypto.sign(Claims(subject, u.role), SigningSecret(env), TokenLifetimeSeconds);
            Reply(Response(200, TokenBody(token)), st)
  }

  /** An unknown email is refused before any password comparison: neither the
      password nor the hashing oracle can change the answer. */
  lemma UnknownEmailSkipsPasswordCheck(body: RequestBody, password: Option<string>, st: Store, fault: Fault,
                                       env: Option<string>, crypto: Crypto, crypto': Crypto)
    requires UserByEmail(st, body.email).None?
    ensures Login(body, st, fault, env, crypto) == Login(body.(password := password), st, fault, env, crypto')
  {
  }

  /** When the profile cannot be saved after the account was, the answer is
      the generic 400 and the account stays: there is no rollback. */
  lemma RegisterDoesNotRollBack(body: RequestBody, userId: Id, patientId: Id, st: Store, fault: Fault, crypto: Crypto)
    requires !FailsAt(fault, 0) && !FailsAt(fault, 1)
    requires UserByEmail(st, body.email).None? && body.password.Some?
    requires UserValid(NewAccount(body, body.password.value, userId, crypto))
    requires FailsAt(fault, 2) || !PatientValid(NewProfile(body, patientId, userId))
    ensures Register(body, userId, patientId, st, fault, crypto)
         == Reply(Error(400, RegisterFailedMsg),
                  st.(users := st.users + [NewAccount(body, body.password.value, userId, crypto)]))
  {
  }

  /** The password length rule sees only the stored hash: whenever the hash
      is long enough, a one-character password registers. */
  lemma ShortPasswordPassesSchema(body: RequestBody, userId: Id, patientId: Id, st: Store, crypto: Crypto)
    requires UserByEmail(st, body.email).None? && body.password == Some("a")
    requires body.email != "" && ValidEmail(body.email)
    requires Utf16Length(crypto.hash("a")) >= 6
    requires PatientValid(NewProfile(body, patientId, userId))
    ensures Register(body, userId, patientId, st, None, crypto).response.status == 201
  {
  }

  /** Registering keeps the store well formed, given fresh ids. */
  lemma RegisterPreservesWf(body: RequestBody, userId: Id, patientId: Id, st: Store, fault: Fault, crypto: Crypto)
    requires Wf(st)
    requires forall i :: 0 <= i < |st.users| ==> st.users[i].id != userId
    requires forall i :: 0 <= i < |st.patients| ==> st.patients[i].id != patientId
    ensures Wf(Register(body, userId, patientId, st, fault, crypto).store)
  {
    var r := Register(body, userId, patientId, st, fault, crypto);
    if r.store.users != st.users {
      var u := NewAccount(body, body.password.value, userId, crypto);
      assert r.store.users == st.users + [u];
      AppendUnique(st.users, u, UserKey);
      AppendUnique(st.users, u, UserEmail);
    }
    if r.store.patients != st.patients {
      AppendUnique(st.patients, NewProfile(body, patientId, userId), PatientKey);
    }
  }

  /** A stored doctor account with a Doctor record and the right password
      gets a token, with the doctor role, for the account's (first) Doctor
      record. */
  lemma DoctorLogsIn(body: RequestBody, st: Store, u: User, d: Doctor, env: Option<string>, crypto: Crypto)
    requires Wf(st)
    requires u in st.users && u.role == DoctorRole && u.email == body.email
    requires d in st.doctors && d.userId == u.id
    requires body.password.Some? && Compare(crypto, body.password.value, u.password)
    ensures DoctorByUserId(st, u.id).Some? && DoctorByUserId(st, u.id).value.userId == u.id
    ensures Login(body, st, None, env, crypto)
         == Reply(Response(200, TokenBody(crypto.sign(Claims(DoctorByUserId(st, u.id).value.id, DoctorRole),
                                                      SigningSecret(env), TokenLifetimeSeconds))), st)
  {
    var i :| 0 <= i < |st.users| && st.users[i] == u;
    var found := UserByEmail(st, body.email).value;
    var j :| 0 <= j < |st.users| && st.users[j] == found;
    assert i == j;
    var k :| 0 <= k < |st.doctors| && st.doctors[k] == d;
  }

  /** Logging in right after registering, with the same email and password,
      issues a token whose subject is the new profile and whose role is
      patient. */
  lemma RegisteredAccountLogsIn(body: RequestBody, creds: RequestBody, userId: Id, patientId: Id, st: Store,
                                env: Option<string>, crypto: Crypto)
    requires forall i :: 0 <= i < |st.patients| ==> st.patients[i].userId != userId
    requires Register(body, userId, patientId, st, None, crypto).response.status == 201
    requires creds.email == body.email && creds.password == body.password
    ensures var st1 := Register(body, userId, patientId, st, None, crypto).store;
            Login(creds, st1, None, env, crypto)
            == Reply(Response(200, TokenBody(crypto.sign(Claims(patientId, PatientRole), SigningSecret(env), TokenLifetimeSeconds))), st1)
  {
    var account := NewAccount(body, body.password.value, userId, crypto);
    var profile := NewProfile(body, patientId, userId);
    var st1 := Register(body, userId, patientId, st, None, crypto).store;
    UserByEmailAppended(st.users, account, st1);
    PatientByUserIdAppended(st.patients, profile, st1);
    assert SubjectOf(st1, account) == Some(patientId);
  }
}

=== FILE: common.dfy ===
/** Small shared vocabulary: optional values, JavaScript truthiness for the
    `||` and `??` merges the route handlers use, and first-match / filter
    helpers over sequences (a MongoDB collection is modelled as a sequence in
    natural order). */
module Common {

  datatype Option<+T> = None | Some(value: T)

  /** Which database operation of a handler throws, counted from 0 in source
      order; `None` means every operation succeeds. Operations before the
      failing one take effect, later ones never run. */
  type Fault = Option<nat>

  predicate FailsAt(fault: Fault, step: nat) {
    fault == Some(step)
  }

  /** JavaScript truthiness of an optional string: absent, null and "" are falsy. */
  predicate TruthyStr(v: Option<string>) {
    v.Some? && v.value != ""
  }

  /** JavaScript truthiness of an optional number: absent, null and 0 are falsy. */
  predicate TruthyNum(v: Option<int>) {
    v.Some? && v.value != 0
  }

  /** `given || current` on strings. */
  function OrStr(given: Option<string>, current: Option<string>): (r: Option<string>)
    ensures TruthyStr(given) ==> r == given
    ensures !TruthyStr(given) ==> r == current
  {
    if TruthyStr(given) then given else current
  }

  /** `given || current` on numbers (a date sent as a timestamp is a number). */
  function OrNum(given: Option<int>, current: Option<int>): (r: Option<int>)
    ensures TruthyNum(given) ==> r == given
    ensures !TruthyNum(given) ==> r == current
  {
    if TruthyNum(given) then given else current
  }

  /** `given ?? current`: only an absent or null value falls back. */
  function Coalesce<T>(given: Option<T>, current: Option<T>): (r: Option<T>)
    ensures given.Some? ==> r == given
    ensures given.None? ==> r == current
  {
    if given.Some? then given else current
  }

  /** Index of the first element satisfying `p`, if any. */
  function FirstIndex<T>(s: seq<T>, p: T -> bool): (r: Option<nat>)
    ensures r.Some? ==> r.value < |s| && p(s[r.value])
    ensures r.Some? ==> forall j :: 0 <= j < r.value ==> !p(s[j])
    ensures r.None? ==> forall j :: 0 <= j < |s| ==> !p(s[j])
  {
    if |s| == 0 then None
    else if p(s[0]) then Some(0)
    else match FirstIndex(s[1..], p)
      case None => None
      case Some(i) => Some(i + 1)
  }

  /** The first element satisfying `p` — `findOne` on a collection. */
  function FindFirst<T>(s: seq<T>, p: T -> bool): (r: Option<T>)
    ensures r.Some? ==> r.value in s && p(r.value)
    ensures r.None? ==> forall j :: 0 <= j < |s| ==> !p(s[j])
  {
    match FirstIndex(s, p)
    case None => None
    case Some(i) => Some(s[i])
  }

  /** The elements satisfying `p`, in their original order — `find` on a collection. */
  function Filter<T>(s: seq<T>, p: T -> bool): (r: seq<T>)
    ensures |r| <= |s|
    ensures forall i :: 0 <= i < |r| ==> r[i] in s && p(r[i])
    ensures forall i :: 0 <= i < |s| && p(s[i]) ==> s[i] in r
    ensures multiset(r) <= multiset(s)
  {
    if |s| == 0 then []
    else
      assert s == [s[0]] + s[1..];
      if p(s[0]) then [s[0]] + Filter(s[1..], p)
      else Filter(s[1..], p)
  }

  lemma {:induction false} FilterAppend<T>(s: seq<T>, t: seq<T>, p: T -> bool)
    ensures Filter(s + t, p) == Filter(s, p) + Filter(t, p)
  {
    if |s| == 0 {
      assert s + t == t;
    } else {
      assert (s + t)[1..] == s[1..] + t;
      FilterAppend(s[1..], t, p);
    }
  }

  /** Keeping everything leaves the sequence as it was. */
  lemma {:induction false} FilterAll<T>(s: seq<T>, p: T -> bool)
    requires forall x :: x in s ==> p(x)
    ensures Filter(s, p) == s
  {
    if |s| > 0 {
      FilterAll(s[1..], p);
    }
  }

  /** Elements of `s` are pairwise distinct under `key`. */
  ghost predicate UniqueBy<T, K>(s: seq<T>, key: T -> K) {
    forall i, j :: 0 <= i < j < |s| ==> key(s[i]) != key(s[j])
  }

  /** Dropping elements keeps keys unique. */
  lemma {:induction false} FilterUnique<T, K>(s: seq<T>, p: T -> bool, key: T -> K)
    requires UniqueBy(s, key)
    ensures UniqueBy(Filter(s, p), key)
  {
    if |s| > 0 {
      FilterUnique(s[1..], p, key);
      var r := Filter(s[1..], p);
      if p(s[0]) {
        forall j | 0 <= j < |r|
          ensures key(s[0]) != key(r[j])
        {
          assert r[j] in s[1..];
        }
      }
    }
  }

  /** Appending an element whose key is new keeps keys unique. */
  lemma AppendUnique<T, K>(s: seq<T>, x: T, key: T -> K)
    requires UniqueBy(s, key)
    requires forall i :: 0 <= i < |s| ==> key(s[i]) != key(x)
    ensures UniqueBy(s + [x], key)
  {
    var t := s + [x];
    forall i, j | 0 <= i < j < |t|
      ensures key(t[i]) != key(t[j])
    {
      if j < |s| {
        assert t[i] == s[i] && t[j] == s[j];
      } else {
        assert t[i] == s[i] && t[j] == x;
      }
    }
  }

  /** Filtering out one rejected element between two kept runs leaves the runs. */
  lemma FilterDropsOne<T>(a: seq<T>, x: T, b: seq<T>, p: T -> bool)
    requires forall y :: y in a ==> p(y)
    requires forall y :: y in b ==> p(y)
    requires !p(x)
    ensures Filter(a + [x] + b, p) == a + b
  {
    FilterAppend(a + [x], b, p);
    FilterAppend(a, [x], p);
    assert [x][1..] == [];
    assert Filter([x], p) == [];
    FilterAll(a, p);
    FilterAll(b, p);
    assert Filter(a + [x], p) == a;
  }

  /** A property every element has survives filtering. */
  lemma FilterPreserves<T>(s: seq<T>, p: T -> bool, q: T -> bool)
    requires forall i :: 0 <= i < |s| ==> q(s[i])
    ensures forall i :: 0 <= i < |Filter(s, p)| ==> q(Filter(s, p)[i])
  {
    var r := Filter(s, p);
    forall i | 0 <= i < |r|
      ensures q(r[i])
    {
      var j :| 0 <= j < |s| && s[j] == r[i];
    }
  }

  lemma FilterSingleton<T>(x: T, p: T -> bool)
    ensures Filter([x], p) == if p(x) then [x] else []
  {
    assert [x][1..] == [];
  }

  /** When nothing qualifies, nothing is kept. */
  lemma FilterNone<T>(s: seq<T>, p: T -> bool)
    requires forall i :: 0 <= i < |s| ==> !p(s[i])
    ensures Filter(s, p) == []
  {
    var r := Filter(s, p);
    if |r| > 0 {
      var j :| 0 <= j < |s| && s[j] == r[0];
    }
  }

  /** Filtering by complementary predicates splits a sequence into two parts
      that together hold every element exactly as often as before. */
  lemma {:induction false} FilterSplit<T>(s: seq<T>, p: T -> bool, q: T -> bool)
    requires forall i :: 0 <= i < |s| ==> (p(s[i]) <==> !q(s[i]))
    ensures multiset(Filter(s, p)) + multiset(Filter(s, q)) == multiset(s)
  {
    if |s| > 0 {
      assert s == [s[0]] + s[1..];
      FilterSplit(s[1..], p, q);
    }
  }

  /** Changing only elements the filter drops does not change its result. */
  lemma {:induction false} FilterIgnoresDropped<T>(s: seq<T>, t: seq<T>, p: T -> bool)
    requires |s| == |t|
    requires forall i :: 0 <= i < |s| ==> s[i] == t[i] || (!p(s[i]) && !p(t[i]))
    ensures Filter(s, p) == Filter(t, p)
  {
    if |s| > 0 {
      assert s[0] == t[0] || (!p(s[0]) && !p(t[0]));
      FilterIgnoresDropped(s[1..], t[1..], p);
    }
  }
}

=== FILE: dashboard.dfy ===
/** The dashboard page's state and the updates its handlers make. A server
    call is replaced by its outcome: each callback takes the data the
    observable delivered, or whether it succeeded. A callback that only logs
    an error leaves the state as it was. */
module Dashboard {
  import opened Common
  import opened Models
  import opened Db
  import opened Http
  import opened Tokens
  import opened Middleware
  import opened Grouping
  import opened DateOrder
  import App
  import MeasurementRoutes
  import PatientRoutes

  /** The component's fields. `newMeasurement` is the form's draft, the
      measurement lists hold the JSON the server sent (a doctor's are
      populated with the patient name), `patient` is the own profile. */
  datatype State = State(
    measurements: seq<MeasurementView>,
    newMeasurement: RequestBody,
    selectedMeasurement: Option<MeasurementView>,
    grouped: Groups,
    patients: seq<PatientView>,
    patient: Option<Patient>,
    selectedPatient: Option<Patient>,
    isDoctor: bool,
    editMode: bool,
    errorMessage: string)

  /** `{}` as a draft: nothing typed yet. */
  const EmptyDraft: RequestBody :=
    RequestBody("", None, None, None, None, None, None, None, None, None, None, None, None)

  /** The field initialisers. */
  const Initial: State :=
    State([], EmptyDraft, None, NoGroups, [], None, None, false, false, "")

  /** The grouped view shows exactly the measurement list. */
  ghost predicate GroupsInSync(s: State) {
    IsGrouping(s.measurements, s.grouped)
  }

  /** The table row of measurement `id` is rendered as an editor. */
  predicate EditingMeasurement(s: State, id: Id) {
    s.editMode && s.selectedMeasurement.Some? && s.selectedMeasurement.value.measurement.id == id
  }

  /** The own-profile row is rendered as an editor. */
  predicate EditingProfile(s: State) {
    && !s.isDoctor && s.patient.Some? && s.editMode
    && s.selectedPatient.Some? && s.selectedPatient.value.id == s.patient.value.id
  }

  // ---- ngOnInit ----

  /** The token's payload segment as the page decodes it; only `role` is read. */
  datatype Payload = Payload(role: Option<string>)

  /** The requests `ngOnInit` starts: the doctor's measurements and patients,
      the own measurements and profile, or none when decoding threw. */
  datatype Loads = DoctorLoads | PatientLoads | NoLoads

  datatype Started = Started(state: State, loads: Loads)

  /** `ngOnInit`. `token` is what local storage holds; `decode` stands for
      parsing the base64 middle segment as JSON, `None` when that throws,
      which ends the method before any request starts. The signature is not
      checked: the branch is a display choice, the server decides access. */
  function Init(s: State, token: Option<string>, decode: string -> Option<Payload>): (r: Started)
    ensures !TruthyStr(token) ==>
      r == Started(s, if s.isDoctor then DoctorLoads else PatientLoads)
    ensures TruthyStr(token) && decode(token.value).None? ==> r == Started(s, NoLoads)
    // Only the role flag can change, and it follows the decoded role.
    ensures r.state == s.(isDoctor := r.state.isDoctor)
    ensures TruthyStr(token) && decode(token.value).Some? ==>
      (r.state.isDoctor <==> decode(token.value).value.role == Some(DoctorRole))
    ensures r.loads == DoctorLoads <==> r.loads != NoLoads && r.state.isDoctor
  {
    if !TruthyStr(token) then
      Started(s, if s.isDoctor then DoctorLoads else PatientLoads)
    else
      match decode(token.value)
      case None => Started(s, NoLoads)
      case Some(payload) =>
        var doctor := payload.role == Some(DoctorRole);
        Started(s.(isDoctor := doctor), if doctor then DoctorLoads else PatientLoads)
  }

  /** On a fresh page the doctor view is chosen exactly when a stored token
      decodes to the doctor role; without a token the page is a patient's. */
  lemma DoctorViewIffDoctorRole(token: Option<string>, decode: string -> Option<Payload>)
    ensures Init(Initial, token, decode).state.isDoctor <==>
      TruthyStr(token) && decode(token.value).Some? && decode(token.value).value.role == Some(DoctorRole)
    ensures !TruthyStr(token) ==> Init(Initial, token, decode).loads == PatientLoads
  {
  }

  /** A token whose payload merely claims the doctor role, but whose signature
      the server does not accept, shows the doctor view, and both requests it
      starts are refused with the invalid-token 401 without touching the store. */
  lemma ForgedDoctorTokenIsRefused(token: string, decode: string -> Option<Payload>,
                                   body: RequestBody, st: Store, env: App.Env)
    requires token != "" && decode(token) == Some(Payload(Some(DoctorRole)))
    requires TruthyStr(env.jwtSecret) ==> env.crypto.verify(token, env.jwtSecret.value).None?
    ensures Init(Initial, Some(token), decode) == Started(Initial.(isDoctor := true), DoctorLoads)
    ensures App.Dispatch(App.Request(App.Get, App.MeasurementsMount, ["doctor"], Some(BearerPrefix + token), body), st, env)
         == Reply(Error(401, InvalidTokenMsg), st)
    ensures App.Dispatch(App.Request(App.Get, App.PatientsMount, ["doctor"], Some(BearerPrefix + token), body), st, env)
         == Reply(Error(401, InvalidTokenMsg), st)
  {
    StripBearerPrefixed(token);
  }

  // ---- load callbacks ----

  /** The doctor's measurements arrived: store them and regroup from `{}`. */
  function DoctorMeasurementsLoaded(s: State, data: seq<MeasurementView>): (r: State)
    ensures r.measurements == data && GroupsInSync(r)
    ensures r == s.(measurements := data, grouped := r.grouped)
  {
    s.(measurements := data, grouped := Group(data))
  }

  /** Grouping starts from an empty map: what was grouped before has no
      influence on the groups after a reload. */
  lemma ReloadForgetsEarlierGroups(s: State, s': State, data: seq<MeasurementView>)
    ensures DoctorMeasurementsLoaded(s, data).grouped == DoctorMeasurementsLoaded(s', data).grouped
    ensures forall k :: k in DoctorMeasurementsLoaded(s, data).grouped.members ==>
      exists i :: 0 <= i < |data| && GroupKey(data[i]) == k
  {
    var g := Group(data);
    forall k | k in g.members
      ensures exists i :: 0 <= i < |data| && GroupKey(data[i]) == k
    {
      PresentKeyIsSeen(data, k);
    }
  }

  /** The doctor's patients arrived. */
  function DoctorPatientsLoaded(s: State, data: seq<PatientView>): (r: State)
    ensures r.patients == data && r == s.(patients := data)
  {
    s.(patients := data)
  }

  /** The own measurements arrived. The groups are not rebuilt: the patient
      view does not show them. */
  function MeasurementsLoaded(s: State, data: seq<MeasurementView>): (r: State)
    ensures r.measurements == data && r.grouped == s.grouped
    ensures r == s.(measurements := data)
  {
    s.(measurements := data)
  }

  /** The own profile arrived. */
  function PatientLoaded(s: State, p: Patient): (r: State)
    ensures r.patient == Some(p) && r == s.(patient := Some(p))
  {
    s.(patient := Some(p))
  }

  /** What the patient page shows after its two loads with a token the
      server accepts: the list is exactly the caller's measurements, newest
      first, and the profile is the caller's own stored record. */
  lemma PatientPageShowsOwnData(s: State, header: Option<string>, body: RequestBody, st: Store, env: App.Env)
    requires env.fault == None && Authenticate(header, env.jwtSecret, env.crypto).Next?
    requires PatientById(st, Authenticate(header, env.jwtSecret, env.crypto).user.userId).Some?
    ensures var caller := Authenticate(header, env.jwtSecret, env.crypto).user.userId;
      var list := App.Dispatch(App.Request(App.Get, App.MeasurementsMount, [], header, body), st, env);
      && list.response.status == 200 && list.response.body.MeasurementsBody?
      && NewestFirst(MeasurementsLoaded(s, list.response.body.measurements).measurements)
      && multiset(MeasurementsLoaded(s, list.response.body.measurements).measurements)
         == multiset(MeasurementRoutes.Bare(MeasurementRoutes.OwnedBy(st, caller)))
    ensures var caller := Authenticate(header, env.jwtSecret, env.crypto).user.userId;
      var own := App.Dispatch(App.Request(App.Get, App.PatientsMount, [], header, body), st, env);
      && own.response.status == 200 && own.response.body.PatientBody?
      && PatientLoaded(s, own.response.body.patient).patient.value.id == caller
      && PatientLoaded(s, own.response.body.patient).patient.value in st.patients
  {
    App.OwnMeasurementsReached(header, body, st, env);
    App.OwnProfileReached(header, body, st, env);
  }

  /** What the doctor page's patient list holds after its load with a token
      the server accepts: every stored patient assigned to the caller, and
      nobody else. */
  lemma DoctorPageShowsAssignedPatients(s: State, header: Option<string>, body: RequestBody, st: Store, env: App.Env)
    requires env.fault == None && Authenticate(header, env.jwtSecret, env.crypto).Next?
    ensures var caller := Authenticate(header, env.jwtSecret, env.crypto).user.userId;
      var reply := App.Dispatch(App.Request(App.Get, App.PatientsMount, ["doctor"], header, body), st, env);
      reply.response.status == 200 ==>
      && reply.response.body.PatientsBody?
      && (forall v :: v in DoctorPatientsLoaded(s, reply.response.body.patients).patients ==>
            v.patient in st.patients && v.patient.doctorId == Some(caller))
      && (forall p :: p in st.patients && p.doctorId == Some(caller) ==>
            PatientRoutes.WithEmail(st, p) in DoctorPatientsLoaded(s, reply.response.body.patients).patients)
  {
    var caller := Authenticate(header, env.jwtSecret, env.crypto).user;
    App.DoctorPatientsReached(header, body, st, env);
    PatientRoutes.DoctorSeesExactlyAssigned(caller, st, env.fault);
  }

  // ---- submitting a measurement ----

  /** The new measurement was stored: clear the draft and the error; the
      list is then reloaded, which `MeasurementsLoaded` models. */
  function SubmitSucceeded(s: State): (r: State)
    ensures r.newMeasurement == EmptyDraft && r.errorMessage == ""
    ensures r == s.(newMeasurement := EmptyDraft, errorMessage := "")
  {
    s.(newMeasurement := EmptyDraft, errorMessage := "")
  }

  /** After the server accepted a submitted draft, the draft is cleared and
      the reload that follows lists the stored measurement, owned by the
      caller whatever the draft said. */
  lemma SubmittedMeasurementIsListed(s: State, header: Option<string>, draft: RequestBody, other: RequestBody,
                                     st: Store, env: App.Env)
    requires env.fault == None && Authenticate(header, env.jwtSecret, env.crypto).Next?
    requires App.Dispatch(App.Request(App.Post, App.MeasurementsMount, [], header, draft), st, env).response.status == 201
    ensures var caller := Authenticate(header, env.jwtSecret, env.crypto).user.userId;
      var st1 := App.Dispatch(App.Request(App.Post, App.MeasurementsMount, [], header, draft), st, env).store;
      var list := App.Dispatch(App.Request(App.Get, App.MeasurementsMount, [], header, other), st1, env);
      && SubmitSucceeded(s).newMeasurement == EmptyDraft
      && list.response.status == 200 && list.response.body.MeasurementsBody?
      && MeasurementView(MeasurementRoutes.NewMeasurement(env.ids.measurementId, caller, draft), None)
         in MeasurementsLoaded(SubmitSucceeded(s), list.response.body.measurements).measurements
  {
    var caller := Authenticate(header, env.jwtSecret, env.crypto).user.userId;
    App.OwnMeasurementsReached(header, draft, st, env);
    var m := MeasurementRoutes.NewMeasurement(env.ids.measurementId, caller, draft);
    var st1 := st.(measurements := st.measurements + [m]);
    App.OwnMeasurementsReached(header, other, st1, env);
    var owned := MeasurementRoutes.OwnedBy(st1, caller);
    assert st1.measurements[|st.measurements|] == m;
    assert m in owned;
    var k :| 0 <= k < |owned| && owned[k] == m;
    var bare := MeasurementRoutes.Bare(owned);
    assert bare[k] == MeasurementView(m, None);
    assert MeasurementView(m, None) in multiset(bare);
  }

  const FallbackErrorMsg: string := "Hiba történt"

  /** The server refused the measurement: show its `error` text, or a
      generic one when there is none. The draft is kept for another try. */
  function SubmitFailed(s: State, serverError: Option<string>): (r: State)
    ensures r.errorMessage != ""
    ensures TruthyStr(serverError) ==> r.errorMessage == serverError.value
    ensures !TruthyStr(serverError) ==> r.errorMessage == FallbackErrorMsg
    ensures r == s.(errorMessage := r.errorMessage)
  {
    s.(errorMessage := OrStr(serverError, Some(FallbackErrorMsg)).value)
  }

  // ---- deleting a measurement ----

  function OtherId(id: Id): MeasurementView -> bool {
    (m: MeasurementView) => m.measurement.id != id
  }

  function SameId(id: Id): MeasurementView -> bool {
    (m: MeasurementView) => m.measurement.id == id
  }

  /** `deleteMeasurement(id)`: `confirmed` is the answer to the confirmation
      dialog, `succeeded` whether the server call went through. */
  function DeleteMeasurement(s: State, id: Id, confirmed: bool, succeeded: bool): (r: State)
    ensures !(confirmed && succeeded) ==> r == s
    // Every entry with the id goes, every other entry stays, as often as before.
    ensures confirmed && succeeded ==>
      && (forall i :: 0 <= i < |r.measurements| ==> r.measurements[i].measurement.id != id)
      && multiset(r.measurements) + multiset(Filter(s.measurements, SameId(id))) == multiset(s.measurements)
    ensures confirmed && succeeded ==> GroupsInSync(r)
    ensures r == s.(measurements := r.measurements, grouped := r.grouped)
  {
    if confirmed && succeeded then
      var kept := Filter(s.measurements, OtherId(id));
      FilterSplit(s.measurements, OtherId(id), SameId(id));
      s.(measurements := kept, grouped := Group(kept))
    else s
  }

  /** The entries around a deleted one keep their order. */
  lemma DeleteKeepsOthersInOrder(s: State, a: seq<MeasurementView>, x: MeasurementView, b: seq<MeasurementView>)
    requires s.measurements == a + [x] + b
    requires forall y :: y in a + b ==> y.measurement.id != x.measurement.id
    ensures DeleteMeasurement(s, x.measurement.id, true, true).measurements == a + b
  {
    FilterDropsOne(a, x, b, OtherId(x.measurement.id));
  }

  // ---- editing ----

  /** `startMeasurementEdit(m)`: the selection is a copy of the row. */
  function StartMeasurementEdit(s: State, m: MeasurementView): (r: State)
    ensures forall id :: EditingMeasurement(r, id) <==> id == m.measurement.id
    ensures r.selectedMeasurement == Some(m)
    ensures r == s.(editMode := true, selectedMeasurement := Some(m))
  {
    s.(editMode := true, selectedMeasurement := Some(m))
  }

  function StartPatientEdit(s: State, p: Patient): (r: State)
    ensures r.editMode && r.selectedPatient == Some(p)
    ensures !s.isDoctor && s.patient == Some(p) ==> EditingProfile(r)
    ensures r == s.(editMode := true, selectedPatient := Some(p))
  {
    s.(editMode := true, selectedPatient := Some(p))
  }

  function CancelMeasurementEdit(s: State): (r: State)
    ensures forall id :: !EditingMeasurement(r, id)
    ensures !EditingProfile(r)
    ensures r == s.(editMode := false, selectedMeasurement := None)
  {
    s.(editMode := false, selectedMeasurement := None)
  }

  function CancelPatientEdit(s: State): (r: State)
    ensures forall id :: !EditingMeasurement(r, id)
    ensures !EditingProfile(r)
    ensures r == s.(editMode := false, selectedPatient := None)
  {
    s.(editMode := false, selectedPatient := None)
  }

  /** Starting an edit and cancelling it is the same as cancelling. */
  lemma StartThenCancelIsCancel(s: State, m: MeasurementView, p: Patient)
    ensures CancelMeasurementEdit(StartMeasurementEdit(s, m)) == CancelMeasurementEdit(s)
    ensures CancelPatientEdit(StartPatientEdit(s, p)) == CancelPatientEdit(s)
    ensures !s.editMode && s.selectedMeasurement.None? ==>
      CancelMeasurementEdit(StartMeasurementEdit(s, m)) == s
  {
  }

  /** `measurements[findIndex(same id)] = updated`, when there is such an index. */
  function ReplaceFirstWithId(ms: seq<MeasurementView>, updated: MeasurementView): (r: seq<MeasurementView>)
    ensures |r| == |ms|
    // An entry changes only into `updated`, and only if it had the same id.
    ensures forall i :: 0 <= i < |ms| ==>
      r[i] == ms[i] || (ms[i].measurement.id == updated.measurement.id && r[i] == updated)
    // The first entry with the id is replaced; any later duplicates are not.
    ensures forall i ::
      (0 <= i < |ms| && ms[i].measurement.id == updated.measurement.id &&
       forall j :: 0 <= j < i ==> ms[j].measurement.id != updated.measurement.id) ==> r[i] == updated
    ensures forall i, j :: 0 <= j < i < |ms| && ms[j].measurement.id == updated.measurement.id ==>
      r[i] == ms[i]
  {
    match FirstIndex(ms, SameId(updated.measurement.id))
    case None => ms
    case Some(i) => ms[i := updated]
  }

  /** `saveMeasurementEdit()`; `updated` is the record the server returned. */
  function SaveMeasurementEdit(s: State, updated: MeasurementView, succeeded: bool): (r: State)
    ensures !succeeded ==> r == s
    ensures succeeded ==>
      && r.measurements == ReplaceFirstWithId(s.measurements, updated)
      && GroupsInSync(r)
      && !r.editMode && r.selectedMeasurement.None?
      && r == s.(measurements := r.measurements, grouped := r.grouped,
                 editMode := false, selectedMeasurement := None)
  {
    if succeeded then
      var ms := ReplaceFirstWithId(s.measurements, updated);
      s.(measurements := ms, grouped := Group(ms), editMode := false, selectedMeasurement := None)
    else s
  }

  /** Deleting an entry after saving an edit of it removes the same entries
      as deleting it straight away. */
  lemma SaveThenDeleteIsDelete(s: State, updated: MeasurementView)
    ensures DeleteMeasurement(SaveMeasurementEdit(s, updated, true), updated.measurement.id, true, true).measurements
         == DeleteMeasurement(s, updated.measurement.id, true, true).measurements
  {
    FilterIgnoresDropped(ReplaceFirstWithId(s.measurements, updated), s.measurements,
                         OtherId(updated.measurement.id));
  }

  /** `savePatientEdit()` as written: the selection cleared is the
      measurement's, so the profile selection stays behind. */
  function SavePatientEditAsWritten(s: State, updated: Patient, succeeded: bool): (r: State)
    ensures !succeeded ==> r == s
    ensures succeeded ==>
      && r.patient == Some(updated) && !r.editMode
      && r.selectedMeasurement.None? && r.selectedPatient == s.selectedPatient
      && r == s.(patient := Some(updated), editMode := false, selectedMeasurement := None)
  {
    if succeeded then s.(patient := Some(updated), editMode := false, selectedMeasurement := None)
    else s
  }

  /** With the stale profile selection, the next measurement edit also
      turns the profile row into an editor again. */
  lemma ProfileEditorReopens(s: State, p: Patient, updated: Patient, m: MeasurementView)
    requires !s.isDoctor && s.patient == Some(p) && updated.id == p.id
    ensures var after := SavePatientEditAsWritten(StartPatientEdit(s, p), updated, true);
      && !EditingProfile(after)
      && EditingProfile(StartMeasurementEdit(after, m))
  {
  }

  /** `savePatientEdit()` with the profile selection cleared, as cancelling
      does. */
  function SavePatientEdit(s: State, updated: Patient, succeeded: bool): (r: State)
    ensures !succeeded ==> r == s
    ensures succeeded ==>
      && r.patient == Some(updated) && !r.editMode
      && r.selectedMeasurement.None? && r.selectedPatient.None?
      && r == s.(patient := Some(updated), editMode := false,
                 selectedMeasurement := None, selectedPatient := None)
  {
    if succeeded then
      s.(patient := Some(updated), editMode := false, selectedMeasurement := None, selectedPatient := None)
    else s
  }

  /** After a saved profile edit, starting a measurement edit opens that row
      only; and the corrected save agrees with the written one everywhere
      except the profile selection. */
  lemma SavedProfileStaysClosed(s: State, updated: Patient, succeeded: bool, m: MeasurementView)
    ensures var after := SavePatientEdit(s, updated, succeeded);
      succeeded ==> !EditingProfile(StartMeasurementEdit(after, m))
    ensures SavePatientEdit(s, updated, succeeded)
         == SavePatientEditAsWritten(s, updated, succeeded).(
              selectedPatient := if succeeded then None else s.selectedPatient)
  {
  }

  /** The page calls the grouping loop as written. Where no name it groups is
      inherited from `Object.prototype`, that loop finishes and builds the
      groups the regrouping callbacks store: after the doctor's load ... */
  lemma DoctorLoadAgreesOffPrototype(s: State, data: seq<MeasurementView>)
    requires forall i :: 0 <= i < |data| ==> GroupKey(data[i]) !in InheritedKeys
    ensures GroupAsWritten(data) == Some(DoctorMeasurementsLoaded(s, data).grouped)
  {
    AsWrittenAgreesOffPrototype(data);
  }

  /** ... after a delete ... */
  lemma DeleteAgreesOffPrototype(s: State, id: Id)
    requires forall i :: 0 <= i < |s.measurements| ==> GroupKey(s.measurements[i]) !in InheritedKeys
    ensures var r := DeleteMeasurement(s, id, true, true); GroupAsWritten(r.measurements) == Some(r.grouped)
  {
    var kept := Filter(s.measurements, OtherId(id));
    forall i | 0 <= i < |kept|
      ensures GroupKey(kept[i]) !in InheritedKeys
    {
      var j :| 0 <= j < |s.measurements| && s.measurements[j] == kept[i];
    }
    AsWrittenAgreesOffPrototype(kept);
  }

  /** ... and after a saved edit. */
  lemma SaveAgreesOffPrototype(s: State, updated: MeasurementView)
    requires forall i :: 0 <= i < |s.measurements| ==> GroupKey(s.measurements[i]) !in InheritedKeys
    requires GroupKey(updated) !in InheritedKeys
    ensures var r := SaveMeasurementEdit(s, updated, true); GroupAsWritten(r.measurements) == Some(r.grouped)
  {
    var saved := ReplaceFirstWithId(s.measurements, updated);
    assert forall i :: 0 <= i < |saved| ==> GroupKey(saved[i]) !in InheritedKeys;
    AsWrittenAgreesOffPrototype(saved);
  }

  // ---- the page as a whole ----

  /** Everything that can happen to the page after `ngOnInit`. */
  datatype Event =
    | DoctorMeasurementsArrived(data: seq<MeasurementView>)
    | DoctorPatientsArrived(patients: seq<PatientView>)
    | OwnMeasurementsArrived(data: seq<MeasurementView>)
    | OwnProfileArrived(profile: Patient)
    | SubmitOk
    | SubmitRefused(serverError: Option<string>)
    | DeleteClicked(id: Id, confirmed: bool, succeeded: bool)
    | MeasurementEditStarted(row: MeasurementView)
    | MeasurementEditCancelled
    | MeasurementEditSaved(updated: MeasurementView, saved: bool)
    | ProfileEditStarted(current: Patient)
    | ProfileEditCancelled
    | ProfileEditSaved(updatedProfile: Patient, profileSaved: bool)

  function Step(s: State, e: Event): State {
    match e
    case DoctorMeasurementsArrived(data) => DoctorMeasurementsLoaded(s, data)
    case DoctorPatientsArrived(ps) => DoctorPatientsLoaded(s, ps)
    case OwnMeasurementsArrived(data) => MeasurementsLoaded(s, data)
    case OwnProfileArrived(p) => PatientLoaded(s, p)
    case SubmitOk => SubmitSucceeded(s)
    case SubmitRefused(err) => SubmitFailed(s, err)
    case DeleteClicked(id, c, ok) => DeleteMeasurement(s, id, c, ok)
    case MeasurementEditStarted(m) => StartMeasurementEdit(s, m)
    case MeasurementEditCancelled => CancelMeasurementEdit(s)
    case MeasurementEditSaved(u, ok) => SaveMeasurementEdit(s, u, ok)
    case ProfileEditStarted(p) => StartPatientEdit(s, p)
    case ProfileEditCancelled => CancelPatientEdit(s)
    case ProfileEditSaved(u, ok) => SavePatientEdit(s, u, ok)
  }

  /** Every event except the patient view's own reload keeps the grouped
      view in step with the measurement list. */
  lemma EventsKeepGroupsInSync(s: State, e: Event)
    requires GroupsInSync(s) && !e.OwnMeasurementsArrived?
    ensures GroupsInSync(Step(s, e))
  {
  }

  /** The "no measurements" heading of the doctor view appears exactly when
      the list is empty. */
  lemma NoNamesIffNoMeasurements(s: State)
    requires GroupsInSync(s)
    ensures |PatientNames(s.grouped)| == 0 <==> |s.measurements| == 0
  {
    var names := PatientNames(s.grouped);
    assert |names| == |s.grouped.keys| by {
      assert |multiset(names)| == |multiset(s.grouped.keys)|;
    }
    if |s.measurements| > 0 {
      assert GroupKey(s.measurements[0]) in s.grouped.keys;
    }
    if |s.grouped.keys| > 0 {
      var k := s.grouped.keys[0];
      assert s.grouped.members[k] != [];
      assert |Filter(s.measurements, HasKey(k))| > 0;
    }
  }
}

=== FILE: dateorder.dfy ===
/** `.sort({ date: -1 })`: newest first, a document without a date last.
    MongoDB leaves the order of equal dates unspecified; the model inserts
    each one after the equal dates already placed, and the contract promises
    only ordering and permutation. */
module DateOrder {
  import opened Common
  import opened Http

  /** Date `a` sorts no later than date `b` in descending order (a missing date is lowest). */
  predicate DateAtLeast(a: Option<int>, b: Option<int>) {
    b.None? || (a.Some? && a.value >= b.value)
  }

  predicate NewerOrSame(x: MeasurementView, y: MeasurementView) {
    DateAtLeast(x.measurement.date, y.measurement.date)
  }

  ghost predicate NewestFirst(s: seq<MeasurementView>) {
    forall i, j :: 0 <= i < j < |s| ==> NewerOrSame(s[i], s[j])
  }

  /** A head no older than every element of a sorted tail keeps it sorted. */
  lemma ConsNewestFirst(h: MeasurementView, t: seq<MeasurementView>)
    requires NewestFirst(t)
    requires forall k :: 0 <= k < |t| ==> NewerOrSame(h, t[k])
    ensures NewestFirst([h] + t)
  {
    var r := [h] + t;
    forall i, j | 0 <= i < j < |r|
      ensures NewerOrSame(r[i], r[j])
    {
      assert r[j] == t[j - 1];
      if i > 0 {
        assert r[i] == t[i - 1];
      }
    }
  }

  function Insert(x: MeasurementView, s: seq<MeasurementView>): (r: seq<MeasurementView>)
    requires NewestFirst(s)
    ensures NewestFirst(r)
    ensures multiset(r) == multiset(s) + multiset{x}
    ensures |r| == |s| + 1
  {
    if |s| == 0 then [x]
    else if NewerOrSame(x, s[0]) then
      ConsNewestFirst(x, s);
      [x] + s
    else
      assert s == [s[0]] + s[1..];
      var rest := Insert(x, s[1..]);
      assert forall k :: 0 <= k < |rest| ==> NewerOrSame(s[0], rest[k]) by {
        forall k | 0 <= k < |rest|
          ensures NewerOrSame(s[0], rest[k])
        {
          assert rest[k] in multiset(rest);
          if rest[k] != x {
            assert rest[k] in multiset(s[1..]);
            var j :| 0 <= j < |s[1..]| && s[1..][j] == rest[k];
            assert s[j + 1] == rest[k];
          }
        }
      }
      ConsNewestFirst(s[0], rest);
      [s[0]] + rest
  }

  function SortNewestFirst(s: seq<MeasurementView>): (r: seq<MeasurementView>)
    ensures NewestFirst(r)
    ensures multiset(r) == multiset(s)
    ensures |r| == |s|
  {
    if |s| == 0 then []
    else
      assert s == [s[0]] + s[1..];
      Insert(s[0], SortNewestFirst(s[1..]))
  }
}

=== FILE: db.dfy ===
/** The database as an immutable value: one sequence per collection, in
    MongoDB natural order, so `findOne` is the first match and `find` keeps
    that order. */
module Db {
  import opened Common
  import opened Models

  datatype Store = Store(
    users: seq<User>,
    patients: seq<Patient>,
    doctors: seq<Doctor>,
    measurements: seq<Measurement>)

  function UserKey(u: User): Id { u.id }
  function UserEmail(u: User): string { u.email }
  function PatientKey(p: Patient): Id { p.id }
  function DoctorKey(d: Doctor): Id { d.id }
  function MeasurementKey(m: Measurement): Id { m.id }

  /** The invariants every handler keeps: ids unique per collection, emails
      unique (the unique index), and every stored document valid for its
      schema (Mongoose validates on save). */
  ghost predicate Wf(st: Store) {
    && UniqueBy(st.users, UserKey) && UniqueBy(st.users, UserEmail)
    && UniqueBy(st.patients, PatientKey)
    && UniqueBy(st.doctors, DoctorKey)
    && UniqueBy(st.measurements, MeasurementKey)
    && (forall i :: 0 <= i < |st.users| ==> UserValid(st.users[i]))
    && (forall i :: 0 <= i < |st.patients| ==> PatientValid(st.patients[i]))
    && (forall i :: 0 <= i < |st.doctors| ==> DoctorValid(st.doctors[i]))
    && (forall i :: 0 <= i < |st.measurements| ==> MeasurementValid(st.measurements[i]))
  }

  /** `User.findOne({ email })`. */
  function UserByEmail(st: Store, email: string): (r: Option<User>)
    ensures r.Some? ==> r.value in st.users && r.value.email == email
    ensures r.None? ==> forall i :: 0 <= i < |st.users| ==> st.users[i].email != email
  {
    FindFirst(st.users, (u: User) => u.email == email)
  }

  /** `Patient.findOne({ _id })` and `Patient.findById`. */
  function PatientById(st: Store, id: Id): (r: Option<Patient>)
    ensures r.Some? ==> r.value in st.patients && r.value.id == id
    ensures r.None? ==> forall i :: 0 <= i < |st.patients| ==> st.patients[i].id != id
  {
    FindFirst(st.patients, (p: Patient) => p.id == id)
  }

  /** `Patient.findOne({ userId })`. */
  function PatientByUserId(st: Store, userId: Id): (r: Option<Patient>)
    ensures r.Some? ==> r.value in st.patients && r.value.userId == userId
    ensures r.None? ==> forall i :: 0 <= i < |st.patients| ==> st.patients[i].userId != userId
  {
    FindFirst(st.patients, (p: Patient) => p.userId == userId)
  }

  /** `Doctor.findOne({ userId })`. */
  function DoctorByUserId(st: Store, userId: Id): (r: Option<Doctor>)
    ensures r.Some? ==> r.value in st.doctors && r.value.userId == userId
    ensures r.None? ==> forall i :: 0 <= i < |st.doctors| ==> st.doctors[i].userId != userId
  {
    FindFirst(st.doctors, (d: Doctor) => d.userId == userId)
  }

  /** `User.findById`. */
  function UserById(st: Store, id: Id): (r: Option<User>)
    ensures r.Some? ==> r.value in st.users && r.value.id == id
    ensures r.None? ==> forall i :: 0 <= i < |st.users| ==> st.users[i].id != id
  {
    FindFirst(st.users, (u: User) => u.id == id)
  }

  /** `Measurement.findById`. */
  function MeasurementById(st: Store, id: Id): (r: Option<Measurement>)
    ensures r.Some? ==> r.value in st.measurements && r.value.id == id
    ensures r.None? ==> forall i :: 0 <= i < |st.measurements| ==> st.measurements[i].id != id
  {
    FindFirst(st.measurements, (m: Measurement) => m.id == id)
  }

  /** `Patient.find({ doctorId })`. */
  function PatientsOfDoctor(st: Store, doctorId: Id): seq<Patient> {
    Filter(st.patients, (p: Patient) => p.doctorId == Some(doctorId))
  }

  /** `Measurement.findByIdAndDelete(id)`. */
  function DeleteMeasurementById(ms: seq<Measurement>, id: Id): seq<Measurement> {
    Filter(ms, (m: Measurement) => m.id != id)
  }

  /** `Measurement.deleteMany({ patientId })`. */
  function DeleteMeasurementsOf(ms: seq<Measurement>, patientId: Id): seq<Measurement> {
    Filter(ms, (m: Measurement) => m.patientId != patientId)
  }

  /** `Patient.findByIdAndDelete(id)`. */
  function DeletePatientById(ps: seq<Patient>, id: Id): seq<Patient> {
    Filter(ps, (p: Patient) => p.id != id)
  }

  /** `User.findByIdAndDelete(id)`. */
  function DeleteUserById(us: seq<User>, id: Id): seq<User> {
    Filter(us, (u: User) => u.id != id)
  }

  /** `measurement.save()` on a document already in the collection: the
      stored copy with the same id takes the new field values. */
  function ReplaceMeasurement(ms: seq<Measurement>, m: Measurement): (r: seq<Measurement>)
    ensures |r| == |ms|
    ensures forall i :: 0 <= i < |ms| ==> r[i] == (if ms[i].id == m.id then m else ms[i])
  {
    seq(|ms|, i requires 0 <= i < |ms| => if ms[i].id == m.id then m else ms[i])
  }

  /** `patient.save()` on a document already in the collection. */
  function ReplacePatient(ps: seq<Patient>, p: Patient): (r: seq<Patient>)
    ensures |r| == |ps|
    ensures forall i :: 0 <= i < |ps| ==> r[i] == (if ps[i].id == p.id then p else ps[i])
  {
    seq(|ps|, i requires 0 <= i < |ps| => if ps[i].id == p.id then p else ps[i])
  }

  /** After appending a user whose email no stored user has, looking the
      email up finds exactly that user. */
  lemma UserByEmailAppended(users: seq<User>, u: User, st: Store)
    requires forall i :: 0 <= i < |users| ==> users[i].email != u.email
    requires st.users == users + [u]
    ensures UserByEmail(st, u.email) == Some(u)
  {
    assert st.users[|users|] == u;
    var found := UserByEmail(st, u.email);
    if found.Some? {
      var k :| 0 <= k < |st.users| && st.users[k] == found.value;
      if k < |users| {
        assert users[k] == found.value;
      }
    }
  }

  /** After appending a profile whose id no stored profile has, looking the
      id up finds exactly that profile. */
  lemma PatientByIdAppended(patients: seq<Patient>, p: Patient, st: Store)
    requires forall i :: 0 <= i < |patients| ==> patients[i].id != p.id
    requires st.patients == patients + [p]
    ensures PatientById(st, p.id) == Some(p)
  {
    assert st.patients[|patients|] == p;
    var found := PatientById(st, p.id);
    if found.Some? {
      var k :| 0 <= k < |st.patients| && st.patients[k] == found.value;
      if k < |patients| {
        assert patients[k] == found.value;
      }
    }
  }

  /** After appending a profile for an account no stored profile links to,
      the account's profile is exactly that one. */
  lemma PatientByUserIdAppended(patients: seq<Patient>, p: Patient, st: Store)
    requires forall i :: 0 <= i < |patients| ==> patients[i].userId != p.userId
    requires st.patients == patients + [p]
    ensures PatientByUserId(st, p.userId) == Some(p)
  {
    assert st.patients[|patients|] == p;
    var found := PatientByUserId(st, p.userId);
    if found.Some? {
      var k :| 0 <= k < |st.patients| && st.patients[k] == found.value;
      if k < |patients| {
        assert patients[k] == found.value;
      }
    }
  }

  /** Removing accounts keeps the store well formed. */
  lemma WfFilterUsers(st: Store, p: User -> bool)
    requires Wf(st)
    ensures Wf(st.(users := Filter(st.users, p)))
  {
    FilterUnique(st.users, p, UserKey);
    FilterUnique(st.users, p, UserEmail);
    FilterPreserves(st.users, p, UserValid);
  }

  /** Removing profiles keeps the store well formed. */
  lemma WfFilterPatients(st: Store, p: Patient -> bool)
    requires Wf(st)
    ensures Wf(st.(patients := Filter(st.patients, p)))
  {
    FilterUnique(st.patients, p, PatientKey);
    FilterPreserves(st.patients, p, PatientValid);
  }

  /** Removing measurements keeps the store well formed. */
  lemma WfFilterMeasurements(st: Store, p: Measurement -> bool)
    requires Wf(st)
    ensures Wf(st.(measurements := Filter(st.measurements, p)))
  {
    FilterUnique(st.measurements, p, MeasurementKey);
    FilterPreserves(st.measurements, p, MeasurementValid);
  }

  /** Saving a valid measurement over its stored copy keeps the store well formed. */
  lemma WfReplaceMeasurement(st: Store, m: Measurement)
    requires Wf(st) && MeasurementValid(m)
    ensures Wf(st.(measurements := ReplaceMeasurement(st.measurements, m)))
  {
    var r := ReplaceMeasurement(st.measurements, m);
    assert forall i :: 0 <= i < |r| ==> r[i].id == st.measurements[i].id;
  }

  /** Saving a valid profile over its stored copy keeps the store well formed. */
  lemma WfReplacePatient(st: Store, p: Patient)
    requires Wf(st) && PatientValid(p)
    ensures Wf(st.(patients := ReplacePatient(st.patients, p)))
  {
    var r := ReplacePatient(st.patients, p);
    assert forall i :: 0 <= i < |r| ==> r[i].id == st.patients[i].id;
  }

  /** Inserting a valid measurement under a fresh id keeps the store well formed. */
  lemma WfAppendMeasurement(st: Store, m: Measurement)
    requires Wf(st) && MeasurementValid(m)
    requires forall i :: 0 <= i < |st.measurements| ==> st.measurements[i].id != m.id
    ensures Wf(st.(measurements := st.measurements + [m]))
  {
    AppendUnique(st.measurements, m, MeasurementKey);
  }

  /** What each delete keeps: exactly the documents it does not target. */
  lemma DeletesKeepOthers(st: Store, patientId: Id, accountId: Id)
    ensures forall m :: m in st.measurements ==>
      (m in DeleteMeasurementsOf(st.measurements, patientId) <==> m.patientId != patientId)
    ensures forall p :: p in st.patients ==>
      (p in DeletePatientById(st.patients, patientId) <==> p.id != patientId)
    ensures forall u :: u in st.users ==>
      (u in DeleteUserById(st.users, accountId) <==> u.id != accountId)
  {
    forall m | m in st.measurements
      ensures m in DeleteMeasurementsOf(st.measurements, patientId) <==> m.patientId != patientId
    {
      var i :| 0 <= i < |st.measurements| && st.measurements[i] == m;
    }
    forall p | p in st.patients
      ensures p in DeletePatientById(st.patients, patientId) <==> p.id != patientId
    {
      var i :| 0 <= i < |st.patients| && st.patients[i] == p;
    }
    forall u | u in st.users
      ensures u in DeleteUserById(st.users, accountId) <==> u.id != accountId
    {
      var i :| 0 <= i < |st.users| && st.users[i] == u;
    }
  }
}

=== FILE: doctorroutes.dfy ===
/** The public doctor list: `Doctor.find().select('_id fullName')`. */
module DoctorRoutes {
  import opened Common
  import opened Models
  import opened Db
  import opened Http

  /** The projection `select('_id fullName')`: the account link is dropped. */
  function Public(d: Doctor): DoctorView {
    DoctorView(d.id, d.fullName)
  }

  /** `GET /`. Operation 0: `Doctor.find()`. */
  function ListDoctors(st: Store, fault: Fault): (r: Reply)
    ensures r.store == st
    ensures FailsAt(fault, 0) <==> r.response == Error(500, ListDoctorsFailedMsg)
    // Every stored doctor appears, in store order, and nothing else does.
    ensures !FailsAt(fault, 0) ==>
      && r.response.status == 200 && r.response.body.DoctorsBody?
      && |r.response.body.doctors| == |st.doctors|
      && (forall i :: 0 <= i < |st.doctors| ==>
            r.response.body.doctors[i].id == st.doctors[i].id
            && r.response.body.doctors[i].fullName == st.doctors[i].fullName)
  {
    if FailsAt(fault, 0) then Reply(Error(500, ListDoctorsFailedMsg), st)
    else Reply(Response(200, DoctorsBody(seq(|st.doctors|, i requires 0 <= i < |st.doctors| => Public(st.doctors[i])))), st)
  }

  /** The list never reveals which account a doctor belongs to: two stores
      whose doctors differ only in `userId` give the same answer. */
  lemma DoctorListHidesAccount(st: Store, st': Store, fault: Fault)
    requires |st.doctors| == |st'.doctors|
    requires forall i :: 0 <= i < |st.doctors| ==>
      st.doctors[i].id == st'.doctors[i].id && st.doctors[i].fullName == st'.doctors[i].fullName
    ensures ListDoctors(st, fault).response == ListDoctors(st', fault).response
  {
    if !FailsAt(fault, 0) {
      var a := ListDoctors(st, fault).response.body.doctors;
      var b := ListDoctors(st', fault).response.body.doctors;
      assert |a| == |b|;
      forall i | 0 <= i < |a| ensures a[i] == b[i] {
        assert a[i] == DoctorView(st.doctors[i].id, st.doctors[i].fullName);
      }
    }
  }

  /** Every stored doctor is listed. */
  lemma EveryDoctorListed(st: Store, d: Doctor)
    requires d in st.doctors
    ensures Public(d) in ListDoctors(st, None).response.body.doctors
  {
    var i :| 0 <= i < |st.doctors| && st.doctors[i] == d;
    assert ListDoctors(st, None).response.body.doctors[i] == Public(d);
  }
}

=== FILE: grouping.dfy ===
/** The dashboard's grouping of a doctor's measurements by patient name
    (`groupMeasurementsByPatient`) and the order the names are shown in
    (`getPatientNames`, which is `Object.keys`). */
module Grouping {
  import opened Common
  import opened Models
  import opened Http

  /** The property key a measurement is filed under: `m.patientId?.fullName`.
      Without a populated name the value is `undefined`, whose property key is
      the string "undefined". */
  function GroupKey(m: MeasurementView): string {
    match m.patientName
    case Some(n) => n
    case None => "undefined"
  }

  function HasKey(k: string): MeasurementView -> bool {
    m => GroupKey(m) == k
  }

  /** `groupedMeasurements`: the own keys in insertion order, and the arrays. */
  datatype Groups = Groups(keys: seq<string>, members: map<string, seq<MeasurementView>>)

  /** `this.groupedMeasurements = {}`. */
  const NoGroups: Groups := Groups([], map[])

  ghost predicate Distinct(ks: seq<string>) {
    forall i, j :: 0 <= i < j < |ks| ==> ks[i] != ks[j]
  }

  /** Position of the first measurement filed under `k`; `|ms|` when none is. */
  function FirstWithKey(ms: seq<MeasurementView>, k: string): (r: nat)
    ensures r <= |ms|
    ensures r < |ms| ==> GroupKey(ms[r]) == k
    ensures forall j :: 0 <= j < r ==> GroupKey(ms[j]) != k
  {
    if |ms| == 0 then 0
    else if GroupKey(ms[0]) == k then 0
    else 1 + FirstWithKey(ms[1..], k)
  }

  /** `keys` lists each key of `members` exactly once. */
  ghost predicate KeysListed(g: Groups) {
    && Distinct(g.keys)
    && (forall k :: k in g.members <==> k in g.keys)
  }

  /** Every measurement is filed, and each group holds exactly the
      measurements with its key, in input order. */
  ghost predicate GroupsAreFilters(ms: seq<MeasurementView>, g: Groups) {
    && (forall i :: 0 <= i < |ms| ==> GroupKey(ms[i]) in g.members)
    && (forall k :: k in g.members ==> g.members[k] == Filter(ms, HasKey(k)) && g.members[k] != [])
  }

  /** Keys are listed in the order their first measurement appears. */
  ghost predicate InFirstSeenOrder(ms: seq<MeasurementView>, keys: seq<string>) {
    forall i, j :: 0 <= i < j < |keys| ==> FirstWithKey(ms, keys[i]) < FirstWithKey(ms, keys[j])
  }

  /** What it means for `g` to group `ms`. */
  ghost predicate IsGrouping(ms: seq<MeasurementView>, g: Groups) {
    KeysListed(g) && GroupsAreFilters(ms, g) && InFirstSeenOrder(ms, g.keys)
  }

  /** One pass of the loop: create the array on the first sight of a key,
      then push. */
  function AddTo(g: Groups, m: MeasurementView): Groups {
    var k := GroupKey(m);
    if k in g.members then g.(members := g.members[k := g.members[k] + [m]])
    else Groups(g.keys + [k], g.members[k := [m]])
  }

  lemma {:induction false} FirstWithKeyAppend(ms: seq<MeasurementView>, m: MeasurementView, k: string)
    ensures FirstWithKey(ms + [m], k) ==
      if FirstWithKey(ms, k) < |ms| then FirstWithKey(ms, k)
      else if GroupKey(m) == k then |ms|
      else |ms| + 1
  {
    var s := ms + [m];
    assert forall j :: 0 <= j < |ms| ==> s[j] == ms[j];
    assert s[|ms|] == m;
  }

  lemma {:induction false} PresentKeyIsSeen(ms: seq<MeasurementView>, k: string)
    requires Filter(ms, HasKey(k)) != []
    ensures FirstWithKey(ms, k) < |ms|
  {
    var r := Filter(ms, HasKey(k));
    var j :| 0 <= j < |ms| && ms[j] == r[0];
  }

  /** After one more pass the group under `k` is the filter by `k`. */
  lemma {:induction false} AddToKeepsFilterAt(ms: seq<MeasurementView>, g: Groups, m: MeasurementView, k: string)
    requires GroupsAreFilters(ms, g)
    requires k in AddTo(g, m).members
    ensures AddTo(g, m).members[k] == Filter(ms + [m], HasKey(k))
  {
    FilterAppend(ms, [m], HasKey(k));
    FilterSingleton(m, HasKey(k));
    if k == GroupKey(m) && k !in g.members {
      forall i | 0 <= i < |ms| ensures !HasKey(k)(ms[i]) {
        assert GroupKey(ms[i]) in g.members;
      }
      FilterNone(ms, HasKey(k));
    }
  }

  /** After one more pass no group is empty. */
  lemma AddToKeepsGroupsNonEmpty(g: Groups, m: MeasurementView)
    requires forall k :: k in g.members ==> g.members[k] != []
    ensures forall k :: k in AddTo(g, m).members ==> AddTo(g, m).members[k] != []
  {
    var g' := AddTo(g, m);
    forall k | k in g'.members
      ensures g'.members[k] != []
    {
      if k != GroupKey(m) {
        assert g'.members[k] == g.members[k];
      }
    }
  }

  /** After one more pass every measurement, old and new, has its group. */
  lemma AddToFilesEveryMeasurement(ms: seq<MeasurementView>, g: Groups, m: MeasurementView)
    requires forall i :: 0 <= i < |ms| ==> GroupKey(ms[i]) in g.members
    ensures forall i :: 0 <= i < |ms + [m]| ==> GroupKey((ms + [m])[i]) in AddTo(g, m).members
  {
    var s := ms + [m];
    forall i | 0 <= i < |s|
      ensures GroupKey(s[i]) in AddTo(g, m).members
    {
      if i < |ms| {
        assert s[i] == ms[i];
      }
    }
  }

  /** After one more pass every group is still the filter by its key. */
  lemma {:induction false} AddToKeepsFilters(ms: seq<MeasurementView>, g: Groups, m: MeasurementView)
    requires GroupsAreFilters(ms, g)
    ensures GroupsAreFilters(ms + [m], AddTo(g, m))
  {
    var g' := AddTo(g, m);
    forall k | k in g'.members
      ensures g'.members[k] == Filter(ms + [m], HasKey(k))
    {
      AddToKeepsFilterAt(ms, g, m, k);
    }
    AddToKeepsGroupsNonEmpty(g, m);
    AddToFilesEveryMeasurement(ms, g, m);
  }

  /** Every key in `keys` has a measurement in `ms`. */
  ghost predicate AllSeen(ms: seq<MeasurementView>, keys: seq<string>) {
    forall i :: 0 <= i < |keys| ==> FirstWithKey(ms, keys[i]) < |ms|
  }

  lemma {:induction false} FiltersMeanSeen(ms: seq<MeasurementView>, g: Groups)
    requires KeysListed(g) && GroupsAreFilters(ms, g)
    ensures AllSeen(ms, g.keys)
  {
    forall i | 0 <= i < |g.keys|
      ensures FirstWithKey(ms, g.keys[i]) < |ms|
    {
      assert g.keys[i] in g.members;
      PresentKeyIsSeen(ms, g.keys[i]);
    }
  }

  /** Appending a measurement does not move the first appearance of a key
      already seen. */
  lemma {:induction false} SeenKeysKeepPlace(ms: seq<MeasurementView>, keys: seq<string>, m: MeasurementView)
    requires AllSeen(ms, keys)
    ensures forall i :: 0 <= i < |keys| ==> FirstWithKey(ms + [m], keys[i]) == FirstWithKey(ms, keys[i])
  {
    forall i | 0 <= i < |keys|
      ensures FirstWithKey(ms + [m], keys[i]) == FirstWithKey(ms, keys[i])
    {
      FirstWithKeyAppend(ms, m, keys[i]);
    }
  }

  lemma {:induction false} OrderSurvivesAppend(ms: seq<MeasurementView>, keys: seq<string>, m: MeasurementView)
    requires InFirstSeenOrder(ms, keys)
    requires forall i :: 0 <= i < |keys| ==> FirstWithKey(ms + [m], keys[i]) == FirstWithKey(ms, keys[i])
    ensures InFirstSeenOrder(ms + [m], keys)
  {
  }

  /** A key first seen in the appended measurement goes after all the others. */
  lemma {:induction false} NewKeyGoesLast(ms: seq<MeasurementView>, keys: seq<string>, m: MeasurementView)
    requires InFirstSeenOrder(ms, keys) && AllSeen(ms, keys)
    requires forall i :: 0 <= i < |keys| ==> FirstWithKey(ms + [m], keys[i]) == FirstWithKey(ms, keys[i])
    requires FirstWithKey(ms + [m], GroupKey(m)) == |ms|
    ensures InFirstSeenOrder(ms + [m], keys + [GroupKey(m)])
  {
    var s := ms + [m];
    var ks := keys + [GroupKey(m)];
    forall i, j | 0 <= i < j < |ks|
      ensures FirstWithKey(s, ks[i]) < FirstWithKey(s, ks[j])
    {
      assert ks[i] == keys[i];
      var a := FirstWithKey(ms, keys[i]);
      assert a < |ms|;
      assert FirstWithKey(s, ks[i]) == a;
      if j < |keys| {
        assert ks[j] == keys[j];
        assert a < FirstWithKey(ms, keys[j]);
      } else {
        assert ks[j] == GroupKey(m);
      }
    }
  }

  /** After one more pass the keys are still in first-appearance order. */
  lemma {:induction false} AddToKeepsOrder(ms: seq<MeasurementView>, g: Groups, m: MeasurementView)
    requires forall k :: k in g.members <==> k in g.keys
    requires AllSeen(ms, g.keys) && InFirstSeenOrder(ms, g.keys)
    requires GroupKey(m) in g.keys || FirstWithKey(ms, GroupKey(m)) == |ms|
    ensures InFirstSeenOrder(ms + [m], AddTo(g, m).keys)
  {
    SeenKeysKeepPlace(ms, g.keys, m);
    if GroupKey(m) in g.keys {
      OrderSurvivesAppend(ms, g.keys, m);
    } else {
      FirstWithKeyAppend(ms, m, GroupKey(m));
      NewKeyGoesLast(ms, g.keys, m);
    }
  }

  /** One more pass of the loop keeps `IsGrouping`. */
  lemma {:induction false} AddToKeepsGrouping(ms: seq<MeasurementView>, g: Groups, m: MeasurementView)
    requires IsGrouping(ms, g)
    ensures IsGrouping(ms + [m], AddTo(g, m))
  {
    AddToKeepsFilters(ms, g, m);
    FiltersMeanSeen(ms, g);
    if GroupKey(m) !in g.keys {
      assert forall i :: 0 <= i < |ms| ==> GroupKey(ms[i]) != GroupKey(m);
    }
    AddToKeepsOrder(ms, g, m);
    var g' := AddTo(g, m);
    if GroupKey(m) !in g.members {
      forall i, j | 0 <= i < j < |g'.keys|
        ensures g'.keys[i] != g'.keys[j]
      {
        if j == |g.keys| {
          assert g.keys[i] in g.members;
        }
      }
    }
  }

  /** `groupMeasurementsByPatient(ms)`: start from `{}` and run the loop. */
  function Group(ms: seq<MeasurementView>): (g: Groups)
    ensures IsGrouping(ms, g)
    decreases |ms|
  {
    if |ms| == 0 then NoGroups
    else
      var init := ms[..|ms| - 1];
      assert init + [ms[|ms| - 1]] == ms;
      AddToKeepsGrouping(init, Group(init), ms[|ms| - 1]);
      AddTo(Group(init), ms[|ms| - 1])
  }

  /** A measurement lies in the group of its own key and in no other. */
  lemma {:induction false} InExactlyOneGroup(ms: seq<MeasurementView>, i: nat, k: string)
    requires i < |ms| && k in Group(ms).members
    ensures ms[i] in Group(ms).members[k] <==> GroupKey(ms[i]) == k
  {
    var grp := Group(ms).members[k];
    assert grp == Filter(ms, HasKey(k));
    if ms[i] in grp {
      var j :| 0 <= j < |grp| && grp[j] == ms[i];
    }
  }

  /** Measurements summed over the groups named in `ks`. */
  function CountIn(ks: seq<string>, members: map<string, seq<MeasurementView>>): nat {
    if |ks| == 0 then 0
    else CountIn(ks[..|ks| - 1], members)
         + (if ks[|ks| - 1] in members then |members[ks[|ks| - 1]]| else 0)
  }

  lemma {:induction false} CountFrame(ks: seq<string>, m1: map<string, seq<MeasurementView>>, m2: map<string, seq<MeasurementView>>)
    requires forall i :: 0 <= i < |ks| ==> (ks[i] in m1 <==> ks[i] in m2)
    requires forall i :: 0 <= i < |ks| && ks[i] in m1 ==> m1[ks[i]] == m2[ks[i]]
    ensures CountIn(ks, m1) == CountIn(ks, m2)
  {
    if |ks| > 0 {
      CountFrame(ks[..|ks| - 1], m1, m2);
    }
  }

  lemma {:induction false} CountBump(ks: seq<string>, members: map<string, seq<MeasurementView>>, k: string, x: MeasurementView)
    requires Distinct(ks) && k in ks && k in members
    ensures CountIn(ks, members[k := members[k] + [x]]) == CountIn(ks, members) + 1
  {
    var init := ks[..|ks| - 1];
    var bumped := members[k := members[k] + [x]];
    if ks[|ks| - 1] == k {
      CountFrame(init, members, bumped);
    } else {
      var j :| 0 <= j < |ks| && ks[j] == k;
      assert init[j] == k;
      CountBump(init, members, k, x);
    }
  }

  /** Grouping neither loses nor duplicates a measurement. */
  lemma {:induction false} GroupKeepsCount(ms: seq<MeasurementView>)
    ensures CountIn(Group(ms).keys, Group(ms).members) == |ms|
    decreases |ms|
  {
    if |ms| > 0 {
      var init := ms[..|ms| - 1];
      var m := ms[|ms| - 1];
      var g := Group(init);
      GroupKeepsCount(init);
      var k := GroupKey(m);
      if k in g.members {
        CountBump(g.keys, g.members, k, m);
      } else {
        var keys' := g.keys + [k];
        assert keys'[..|keys'| - 1] == g.keys;
        CountFrame(g.keys, g.members, g.members[k := [m]]);
      }
    }
  }

  /** A measurement without a populated name and one whose patient is
      literally named "undefined" land in the same group. */
  lemma {:induction false} UnnamedJoinsUndefined(ms: seq<MeasurementView>, i: nat, j: nat)
    requires i < |ms| && j < |ms|
    requires ms[i].patientName.None? && ms[j].patientName == Some("undefined")
    ensures ms[i] in Group(ms).members["undefined"] && ms[j] in Group(ms).members["undefined"]
  {
    InExactlyOneGroup(ms, i, "undefined");
    InExactlyOneGroup(ms, j, "undefined");
  }

  // ---- Object.keys order ----

  /** Value of a string of decimal digits. */
  function DigitsValue(s: string): nat {
    if |s| == 0 then 0
    else DigitsValue(s[..|s| - 1]) * 10
         + (if IsAsciiDigit(s[|s| - 1]) then s[|s| - 1] as int - '0' as int else 0)
  }

  /** A property key that is an array index: the canonical decimal form of an
      integer below 2^32 - 1. `Object.keys` lists these first, ascending. */
  predicate IsArrayIndex(k: string) {
    && |k| > 0
    && (forall i | 0 <= i < |k| :: IsAsciiDigit(k[i]))
    && (k[0] != '0' || |k| == 1)
    && DigitsValue(k) < 0xFFFF_FFFF
  }

  predicate IsNamedKey(k: string) {
    !IsArrayIndex(k)
  }

  ghost predicate AscendingIndices(s: seq<string>) {
    forall i, j :: 0 <= i < j < |s| ==> DigitsValue(s[i]) <= DigitsValue(s[j])
  }

  lemma {:induction false} ConsAscending(h: string, t: seq<string>)
    requires AscendingIndices(t)
    requires forall k :: 0 <= k < |t| ==> DigitsValue(h) <= DigitsValue(t[k])
    ensures AscendingIndices([h] + t)
  {
    var r := [h] + t;
    forall i, j | 0 <= i < j < |r|
      ensures DigitsValue(r[i]) <= DigitsValue(r[j])
    {
      assert r[j] == t[j - 1];
      if i > 0 {
        assert r[i] == t[i - 1];
      }
    }
  }

  /** A lower bound of `x` and of every element of `s` bounds every element
      of any rearrangement of `s` with `x` added. */
  lemma LowerBoundKept(b: string, x: string, s: seq<string>, r: seq<string>)
    requires DigitsValue(b) <= DigitsValue(x)
    requires forall k :: 0 <= k < |s| ==> DigitsValue(b) <= DigitsValue(s[k])
    requires multiset(r) == multiset(s) + multiset{x}
    ensures forall k :: 0 <= k < |r| ==> DigitsValue(b) <= DigitsValue(r[k])
  {
    forall k | 0 <= k < |r|
      ensures DigitsValue(b) <= DigitsValue(r[k])
    {
      assert r[k] in multiset(r);
      if r[k] != x {
        assert r[k] in multiset(s);
        var j :| 0 <= j < |s| && s[j] == r[k];
      }
    }
  }

  function InsertIndex(x: string, s: seq<string>): (r: seq<string>)
    requires AscendingIndices(s)
    ensures AscendingIndices(r)
    ensures multiset(r) == multiset(s) + multiset{x}
  {
    if |s| == 0 then [x]
    else if DigitsValue(x) <= DigitsValue(s[0]) then
      ConsAscending(x, s);
      [x] + s
    else
      var tail := s[1..];
      assert s == [s[0]] + tail;
      var rest := InsertIndex(x, tail);
      LowerBoundKept(s[0], x, tail, rest);
      ConsAscending(s[0], rest);
      [s[0]] + rest
  }

  function SortIndices(s: seq<string>): (r: seq<string>)
    ensures AscendingIndices(r)
    ensures multiset(r) == multiset(s)
  {
    if |s| == 0 then []
    else
      assert s == [s[0]] + s[1..];
      InsertIndex(s[0], SortIndices(s[1..]))
  }

  /** Every element of a rearrangement of `s` is an element of `s`. */
  lemma InRearrangement(r: seq<string>, s: seq<string>, i: nat)
    requires multiset(r) == multiset(s) && i < |r|
    ensures r[i] in s
  {
    assert r[i] in multiset(r);
  }

  /** `sorted + named` with the indices first and the other keys after. */
  lemma {:induction false} IndicesThenNamed(sorted: seq<string>, indices: seq<string>, named: seq<string>)
    requires multiset(sorted) == multiset(indices) && AscendingIndices(sorted)
    requires forall i :: 0 <= i < |indices| ==> IsArrayIndex(indices[i])
    requires forall i :: 0 <= i < |named| ==> IsNamedKey(named[i])
    ensures var names := sorted + named;
      && (forall i, j :: 0 <= i < j < |names| && IsArrayIndex(names[j]) ==> IsArrayIndex(names[i]))
      && (forall i, j :: 0 <= i < j < |names| && IsArrayIndex(names[i]) && IsArrayIndex(names[j]) ==>
            DigitsValue(names[i]) <= DigitsValue(names[j]))
      && Filter(names, IsNamedKey) == named
  {
    var names := sorted + named;
    forall i | 0 <= i < |sorted|
      ensures IsArrayIndex(sorted[i])
    {
      InRearrangement(sorted, indices, i);
      var k :| 0 <= k < |indices| && indices[k] == sorted[i];
    }
    forall j | |sorted| <= j < |names|
      ensures IsNamedKey(names[j])
    {
      assert names[j] == named[j - |sorted|];
    }
    forall i, j | 0 <= i < j < |names| && IsArrayIndex(names[j])
      ensures IsArrayIndex(names[i])
    {
      assert names[i] == sorted[i];
    }
    forall i, j | 0 <= i < j < |names| && IsArrayIndex(names[i]) && IsArrayIndex(names[j])
      ensures DigitsValue(names[i]) <= DigitsValue(names[j])
    {
      assert names[i] == sorted[i] && names[j] == sorted[j];
    }
    FilterAppend(sorted, named, IsNamedKey);
    FilterNone(sorted, IsNamedKey);
    FilterAll(named, IsNamedKey);
  }

  /** `getPatientNames()`, i.e. `Object.keys(groupedMeasurements)`. */
  function PatientNames(g: Groups): (names: seq<string>)
    ensures multiset(names) == multiset(g.keys)
    // Array-index keys come before every other key ...
    ensures forall i, j :: 0 <= i < j < |names| && IsArrayIndex(names[j]) ==> IsArrayIndex(names[i])
    // ... in ascending numeric order ...
    ensures forall i, j :: 0 <= i < j < |names| && IsArrayIndex(names[i]) && IsArrayIndex(names[j]) ==>
      DigitsValue(names[i]) <= DigitsValue(names[j])
    // ... and the other keys keep their insertion order.
    ensures Filter(names, IsNamedKey) == Filter(g.keys, IsNamedKey)
  {
    var indices := Filter(g.keys, IsArrayIndex);
    var named := Filter(g.keys, IsNamedKey);
    FilterSplit(g.keys, IsArrayIndex, IsNamedKey);
    IndicesThenNamed(SortIndices(indices), indices, named);
    SortIndices(indices) + named
  }

  /** Without array-index keys, `Object.keys` is insertion order. */
  lemma NoIndexKeysKeepInsertionOrder(g: Groups)
    requires forall i :: 0 <= i < |g.keys| ==> !IsArrayIndex(g.keys[i])
    ensures PatientNames(g) == g.keys
  {
    FilterNone(g.keys, IsArrayIndex);
    FilterAll(g.keys, IsNamedKey);
    assert SortIndices([]) == [];
  }

  /** When no patient name is an array index (the usual case), the names are
      listed in the order their first measurement appears. */
  lemma {:induction false} NamesInFirstSeenOrder(ms: seq<MeasurementView>)
    requires forall i :: 0 <= i < |ms| ==> !IsArrayIndex(GroupKey(ms[i]))
    ensures PatientNames(Group(ms)) == Group(ms).keys
    ensures InFirstSeenOrder(ms, PatientNames(Group(ms)))
  {
    var g := Group(ms);
    forall i | 0 <= i < |g.keys|
      ensures !IsArrayIndex(g.keys[i])
    {
      assert g.keys[i] in g.members;
      PresentKeyIsSeen(ms, g.keys[i]);
    }
    NoIndexKeysKeepInsertionOrder(g);
  }

  // ---- the loop as written ----

  /** Names that `{}` already answers through `Object.prototype`: the lookup
      `groupedMeasurements[name]` finds the inherited member, which is truthy,
      so no array is created and the following `.push` is not a function. */
  const InheritedKeys: set<string> := {
    "constructor", "__proto__", "hasOwnProperty", "isPrototypeOf",
    "propertyIsEnumerable", "toString", "toLocaleString", "valueOf",
    "__defineGetter__", "__defineSetter__", "__lookupGetter__", "__lookupSetter__"}

  /** One pass of the loop as written; `None` when it throws. */
  function AddToAsWritten(g: Groups, m: MeasurementView): Option<Groups> {
    var k := GroupKey(m);
    if k !in g.members && k in InheritedKeys then None else Some(AddTo(g, m))
  }

  /** The loop as written; `None` when a pass throws a TypeError. */
  function GroupAsWritten(ms: seq<MeasurementView>): Option<Groups>
    decreases |ms|
  {
    if |ms| == 0 then Some(NoGroups)
    else
      match GroupAsWritten(ms[..|ms| - 1])
      case None => None
      case Some(g) => AddToAsWritten(g, ms[|ms| - 1])
  }

  /** A patient named "constructor" (a valid name: at least three characters)
      makes the loop as written throw instead of grouping. */
  lemma ConstructorNameBreaksGrouping(m: MeasurementView)
    requires m.patientName == Some("constructor")
    ensures GroupAsWritten([m]) == None
    ensures Group([m]).members == map["constructor" := [m]]
  {
    assert [m][..0] == [];
    FilterSingleton(m, HasKey("constructor"));
  }

  /** Away from the inherited names the loop as written is the grouping. */
  lemma {:induction false} AsWrittenAgreesOffPrototype(ms: seq<MeasurementView>)
    requires forall i :: 0 <= i < |ms| ==> GroupKey(ms[i]) !in InheritedKeys
    ensures GroupAsWritten(ms) == Some(Group(ms))
    decreases |ms|
  {
    if |ms| > 0 {
      AsWrittenAgreesOffPrototype(ms[..|ms| - 1]);
    }
  }
}

=== FILE: http.dfy ===
/** The request and response envelopes the Express handlers read and write,
    the JSON shapes of their bodies, and the fixed user-facing messages. */
module Http {
  import opened Common
  import opened Models
  import opened Db

  /** `req.body`, flattened: each handler destructures the fields it needs.
      An absent email is the empty string; any other absent or null field is
      `None`. Dates are timestamps. */
  datatype RequestBody = RequestBody(
    email: string,
    password: Option<string>,
    fullName: Option<string>,
    birthDate: Option<int>,
    birthPlace: Option<string>,
    phone: Option<string>,
    doctorId: Option<Id>,
    patientId: Option<Id>,
    date: Option<int>,
    bloodPressure: Option<int>,
    pulse: Option<int>,
    weight: Option<int>,
    bloodSugar: Option<int>)

  /** A measurement as JSON. When `patientId` was populated with the patient's
      `fullName`, `patientName` carries that value; otherwise there is nothing
      under `patientId.fullName` and it is `None`. */
  datatype MeasurementView = MeasurementView(measurement: Measurement, patientName: Option<string>)

  /** A patient whose `userId` was populated with the account's email; `None`
      when the account no longer exists (populate yields null). */
  datatype PatientView = PatientView(patient: Patient, email: Option<string>)

  /** A doctor projected to `_id` and `fullName`. */
  datatype DoctorView = DoctorView(id: Id, fullName: Option<string>)

  datatype Body =
    | ErrorBody(error: string)
    | MessageBody(message: string)
    | TokenBody(token: string)
    | PatientBody(patient: Patient)
    | PatientsBody(patients: seq<PatientView>)
    | MeasurementBody(measurement: Measurement)
    | MeasurementsBody(measurements: seq<MeasurementView>)
    | DoctorsBody(doctors: seq<DoctorView>)
    | NoRoute  // Express's own "Cannot <METHOD> <path>" page

  datatype Response = Response(status: int, body: Body)

  /** What a handler produces: the response and the store after it ran. */
  datatype Reply = Reply(response: Response, store: Store)

  function Error(status: int, message: string): Response {
    Response(status, ErrorBody(message))
  }

  // Authentication middleware
  const MissingTokenMsg: string := "Nincs token megadva"
  const InvalidTokenMsg: string := "Érvénytelen token"
  // Registration and login
  const EmailTakenMsg: string := "Az email már használatban van"
  const RegisterFailedMsg: string := "Sikertelen regisztráció"
  const RegisteredMsg: string := "Páciens sikeresen regisztrálva"
  const UnknownUserMsg: string := "A felhasználó nem létezik vagy nem adtál meg emailt"
  const WrongPasswordMsg: string := "Hibás jelszó vagy nem adtál meg jelszót"
  const LoginFailedMsg: string := "Sikertelen bejelentkezés"
  // Ownership and lookups
  const ForbiddenMsg: string := "Nincs jogosultság"
  const NoPatientMsg: string := "Páciens nem létezik"
  const NoMeasurementMsg: string := "Mérés nem található"
  const NoPatientsOfDoctorMsg: string := "Orvosnak nincsenek páciensei"
  const ServerErrorMsg: string := "Szerverhiba"
  // Per-route failures
  const ListMeasurementsFailedMsg: string := "Nem sikerült lekérni a méréseket"
  const AddMeasurementFailedMsg: string := "Nem sikerült az új mérés hozzáadása"
  const MeasurementDeletedMsg: string := "Mérés törölve"
  const PatientDeletedMsg: string := "Páciens törölve"
  const DoctorPatientsFailedMsg: string := "Orvos pácienseinek lekérése sikertelen"
  const GetPatientFailedMsg: string := "Páciens lekérése sikertelen"
  const ListDoctorsFailedMsg: string := "Orvosok lekérése sikertelen"
}

=== FILE: measurementroutes.dfy ===
/** The measurement router: a patient's own list and create (which check
    `req.user` themselves), the doctor's aggregate read, and delete/update,
    whose ownership is transitive through the measurement's `patientId`.
    Database operations are numbered in source order for `fault`. */
module MeasurementRoutes {
  import opened Common
  import opened Models
  import opened Db
  import opened Http
  import opened DateOrder
  import opened Middleware

  /** Measurements as returned without `populate`. */
  function Bare(ms: seq<Measurement>): (r: seq<MeasurementView>)
    ensures |r| == |ms|
    ensures forall i :: 0 <= i < |ms| ==> r[i] == MeasurementView(ms[i], None)
  {
    seq(|ms|, i requires 0 <= i < |ms| => MeasurementView(ms[i], None))
  }

  /** `Measurement.find({ patientId })`. */
  function OwnedBy(st: Store, patientId: Id): seq<Measurement> {
    Filter(st.measurements, (m: Measurement) => m.patientId == patientId)
  }

  /** `GET /`. Operations: 0 `Patient.findOne`, 1 `Measurement.find`. */
  function ListOwn(user: Option<AuthUser>, st: Store, fault: Fault): (r: Reply)
    ensures r.store == st
    ensures user.None? ==> r.response == Error(401, ForbiddenMsg)
    ensures user.Some? && FailsAt(fault, 0) ==> r.response == Error(500, ListMeasurementsFailedMsg)
    ensures user.Some? && !FailsAt(fault, 0) && PatientById(st, user.value.userId).None? ==>
      r.response == Error(404, NoPatientMsg)
    ensures user.Some? && !FailsAt(fault, 0) && PatientById(st, user.value.userId).Some? && FailsAt(fault, 1) ==>
      r.response == Error(500, ListMeasurementsFailedMsg)
    // The list comes exactly when the caller's profile is found and neither read fails.
    ensures r.response.status == 200 <==>
      user.Some? && !FailsAt(fault, 0) && !FailsAt(fault, 1) && PatientById(st, user.value.userId).Some?
    // The answer is exactly the caller's own measurements, newest first.
    ensures r.response.status == 200 ==>
      && user.Some? && PatientById(st, user.value.userId).Some?
      && r.response.body.MeasurementsBody?
      && NewestFirst(r.response.body.measurements)
      && multiset(r.response.body.measurements) == multiset(Bare(OwnedBy(st, user.value.userId)))
    ensures r.response.status in {200, 401, 404, 500}
  {
    if user.None? then Reply(Error(401, ForbiddenMsg), st)
    else if FailsAt(fault, 0) then Reply(Error(500, ListMeasurementsFailedMsg), st)
    else match PatientById(st, user.value.userId)
      case None => Reply(Error(404, NoPatientMsg), st)
      case Some(patient) =>
        if FailsAt(fault, 1) then Reply(Error(500, ListMeasurementsFailedMsg), st)
        else Reply(Response(200, MeasurementsBody(SortNewestFirst(Bare(OwnedBy(st, patient.id))))), st)
  }

  /** The document `POST /` builds: the owner is the caller's patient record,
      whatever `patientId` the body holds. */
  function NewMeasurement(id: Id, patientId: Id, body: RequestBody): Measurement {
    Measurement(id, patientId, body.date, body.bloodPressure, body.pulse, body.weight, body.bloodSugar)
  }

  /** `POST /`. Operations: 0 `Patient.findOne`, 1 `newMeasurement.save`
      (which also fails when the date is missing). The `catch` answers 400. */
  function Create(user: Option<AuthUser>, body: RequestBody, newId: Id, st: Store, fault: Fault): (r: Reply)
    ensures user.None? ==> r == Reply(Error(401, ForbiddenMsg), st)
    ensures user.Some? && !FailsAt(fault, 0) && PatientById(st, user.value.userId).None? ==>
      r == Reply(Error(404, NoPatientMsg), st)
    // A failing lookup, a failing save and a missing date all land in the catch.
    ensures user.Some? && FailsAt(fault, 0) ==> r == Reply(Error(400, AddMeasurementFailedMsg), st)
    ensures user.Some? && !FailsAt(fault, 0) && PatientById(st, user.value.userId).Some?
            && (FailsAt(fault, 1) || body.date.None?) ==>
      r == Reply(Error(400, AddMeasurementFailedMsg), st)
    ensures r.response.status in {201, 400, 401, 404}
    ensures r.response.status == 201 <==>
      && user.Some? && !FailsAt(fault, 0) && !FailsAt(fault, 1)
      && PatientById(st, user.value.userId).Some? && body.date.Some?
    // The new record belongs to the caller, and it is the only change.
    ensures r.response.status == 201 ==>
      && r.response.body == MeasurementBody(NewMeasurement(newId, user.value.userId, body))
      && r.response.body.measurement.patientId == user.value.userId
      && r.store == st.(measurements := st.measurements + [NewMeasurement(newId, user.value.userId, body)])
    ensures r.response.status != 201 ==> r.store == st
    ensures r.response.status == 400 ==> r.response == Error(400, AddMeasurementFailedMsg)
  {
    if user.None? then Reply(Error(401, ForbiddenMsg), st)
    else if FailsAt(fault, 0) then Reply(Error(400, AddMeasurementFailedMsg), st)
    else match PatientById(st, user.value.userId)
      case None => Reply(Error(404, NoPatientMsg), st)
      case Some(patient) =>
        var m := NewMeasurement(newId, patient.id, body);
        if FailsAt(fault, 1) || !MeasurementValid(m) then Reply(Error(400, AddMeasurementFailedMsg), st)
        else Reply(Response(201, MeasurementBody(m)), st.(measurements := st.measurements + [m]))
  }

  /** The ids of the given patients, in order. */
  function PatientIds(ps: seq<Patient>): (r: seq<Id>)
    ensures |r| == |ps|
    ensures forall i :: 0 <= i < |ps| ==> r[i] == ps[i].id
  {
    seq(|ps|, i requires 0 <= i < |ps| => ps[i].id)
  }

  /** `m` belongs to a patient assigned to doctor `doctorId`. */
  ghost predicate UnderDoctor(st: Store, m: Measurement, doctorId: Id) {
    exists p :: p in st.patients && p.id == m.patientId && p.doctorId == Some(doctorId)
  }

  /** `Measurement.find({ patientId: { $in: patientIds } })`: exactly the
      measurements whose patient is assigned to the doctor, in store order. */
  function DoctorScope(st: Store, doctorId: Id): (r: seq<Measurement>)
    ensures forall m :: m in r <==> m in st.measurements && UnderDoctor(st, m, doctorId)
    ensures forall i :: 0 <= i < |r| ==> r[i] in st.measurements
  {
    var ids := PatientIds(PatientsOfDoctor(st, doctorId));
    var r := Filter(st.measurements, (m: Measurement) => m.patientId in ids);
    assert forall m :: m in r ==> UnderDoctor(st, m, doctorId) by {
      forall m | m in r ensures UnderDoctor(st, m, doctorId) {
        var k :| 0 <= k < |ids| && ids[k] == m.patientId;
        assert PatientsOfDoctor(st, doctorId)[k] in st.patients;
      }
    }
    assert forall m :: m in st.measurements && UnderDoctor(st, m, doctorId) ==> m in r by {
      forall m | m in st.measurements && UnderDoctor(st, m, doctorId) ensures m in r {
        var p :| p in st.patients && p.id == m.patientId && p.doctorId == Some(doctorId);
        var k :| 0 <= k < |st.patients| && st.patients[k] == p;
        assert p in PatientsOfDoctor(st, doctorId);
        var j :| 0 <= j < |PatientsOfDoctor(st, doctorId)| && PatientsOfDoctor(st, doctorId)[j] == p;
        assert ids[j] == m.patientId;
        var i :| 0 <= i < |st.measurements| && st.measurements[i] == m;
      }
    }
    r
  }

  /** `.populate('patientId', 'fullName')`: the owner's name, if the owner exists. */
  function Populate(st: Store, m: Measurement): MeasurementView {
    match PatientById(st, m.patientId)
    case Some(p) => MeasurementView(m, p.fullName)
    case None => MeasurementView(m, None)
  }

  function PopulateAll(st: Store, ms: seq<Measurement>): (r: seq<MeasurementView>)
    ensures |r| == |ms|
    ensures forall i :: 0 <= i < |ms| ==> r[i] == Populate(st, ms[i])
  {
    seq(|ms|, i requires 0 <= i < |ms| => Populate(st, ms[i]))
  }

  /** `GET /doctor`. Operations: 0 `Patient.find`, 1 `Measurement.find`.
      The scope comes only from the caller's subject id. */
  function ListForDoctor(user: AuthUser, st: Store, fault: Fault): (r: Reply)
    ensures r.store == st
    ensures FailsAt(fault, 0) ==> r.response == Error(500, ServerErrorMsg)
    ensures !FailsAt(fault, 0) && PatientsOfDoctor(st, user.userId) == [] ==>
      r.response == Response(200, MeasurementsBody([]))
    // The second read only runs when the doctor has patients.
    ensures r.response.status == 200 <==>
      !FailsAt(fault, 0) && (PatientsOfDoctor(st, user.userId) == [] || !FailsAt(fault, 1))
    ensures r.response.status == 200 ==>
      && r.response.body.MeasurementsBody?
      && NewestFirst(r.response.body.measurements)
      && multiset(r.response.body.measurements) == multiset(PopulateAll(st, DoctorScope(st, user.userId)))
    ensures r.response.status in {200, 500}
  {
    if FailsAt(fault, 0) then Reply(Error(500, ServerErrorMsg), st)
    else
      var patients := PatientsOfDoctor(st, user.userId);
      if |patients| == 0 then
        assert PatientIds(patients) == [];
        Reply(Response(200, MeasurementsBody([])), st)
      else if FailsAt(fault, 1) then Reply(Error(500, ServerErrorMsg), st)
      else Reply(Response(200, MeasurementsBody(SortNewestFirst(PopulateAll(st, DoctorScope(st, user.userId))))), st)
  }

  /** `DELETE /:id`. Operations: 0 `Measurement.findById`,
      1 `Measurement.findByIdAndDelete`. Existence is checked before ownership. */
  function Delete(user: AuthUser, id: Id, st: Store, fault: Fault): (r: Reply)
    ensures FailsAt(fault, 0) ==> r == Reply(Error(500, ServerErrorMsg), st)
    ensures !FailsAt(fault, 0) && MeasurementById(st, id).None? ==>
      r == Reply(Error(404, NoMeasurementMsg), st)
    ensures !FailsAt(fault, 0) && MeasurementById(st, id).Some?
            && MeasurementById(st, id).value.patientId != user.userId ==>
      r == Reply(Error(403, ForbiddenMsg), st)
    ensures r.response.status == 200 <==>
      && !FailsAt(fault, 0) && !FailsAt(fault, 1)
      && MeasurementById(st, id).Some? && MeasurementById(st, id).value.patientId == user.userId
    // A failing delete of an owned record is the catch's 500.
    ensures !FailsAt(fault, 0) && MeasurementById(st, id).Some?
            && MeasurementById(st, id).value.patientId == user.userId && FailsAt(fault, 1) ==>
      r == Reply(Error(500, ServerErrorMsg), st)
    ensures r.response.status in {200, 403, 404, 500}
    ensures r.response.status == 200 ==>
      r == Reply(Response(200, MessageBody(MeasurementDeletedMsg)),
                 st.(measurements := DeleteMeasurementById(st.measurements, id)))
    ensures r.response.status != 200 ==> r.store == st
  {
    if FailsAt(fault, 0) then Reply(Error(500, ServerErrorMsg), st)
    else match MeasurementById(st, id)
      case None => Reply(Error(404, NoMeasurementMsg), st)
      case Some(m) =>
        if m.patientId != user.userId then Reply(Error(403, ForbiddenMsg), st)
        else if FailsAt(fault, 1) then Reply(Error(500, ServerErrorMsg), st)
        else Reply(Response(200, MessageBody(MeasurementDeletedMsg)),
                   st.(measurements := DeleteMeasurementById(st.measurements, id)))
  }

  /** The field merge of `PUT /:id`: `date || old` (a falsy date keeps the
      old one) but `reading ?? old` (only a missing reading keeps the old
      one, so 0 overwrites). The id and owner are never taken from the body. */
  function Merge(m: Measurement, body: RequestBody): (r: Measurement)
    ensures r.id == m.id && r.patientId == m.patientId
    ensures r.date == OrNum(body.date, m.date)
    ensures r.bloodPressure == Coalesce(body.bloodPressure, m.bloodPressure)
    ensures r.pulse == Coalesce(body.pulse, m.pulse)
    ensures r.weight == Coalesce(body.weight, m.weight)
    ensures r.bloodSugar == Coalesce(body.bloodSugar, m.bloodSugar)
  {
    m.(date := OrNum(body.date, m.date),
       bloodPressure := Coalesce(body.bloodPressure, m.bloodPressure),
       pulse := Coalesce(body.pulse, m.pulse),
       weight := Coalesce(body.weight, m.weight),
       bloodSugar := Coalesce(body.bloodSugar, m.bloodSugar))
  }

  /** `PUT /:id`. Operations: 0 `Measurement.findById`, 1 `measurement.save`. */
  function Update(user: AuthUser, id: Id, body: RequestBody, st: Store, fault: Fault): (r: Reply)
    ensures FailsAt(fault, 0) ==> r == Reply(Error(500, ServerErrorMsg), st)
    ensures !FailsAt(fault, 0) && MeasurementById(st, id).None? ==>
      r == Reply(Error(404, NoMeasurementMsg), st)
    ensures !FailsAt(fault, 0) && MeasurementById(st, id).Some?
            && MeasurementById(st, id).value.patientId != user.userId ==>
      r == Reply(Error(403, ForbiddenMsg), st)
    // Success is exactly: the record exists, the caller owns it, nothing
    // fails, and the merged record passes the schema.
    ensures r.response.status == 200 <==>
      && !FailsAt(fault, 0) && !FailsAt(fault, 1)
      && MeasurementById(st, id).Some? && MeasurementById(st, id).value.patientId == user.userId
      && MeasurementValid(Merge(MeasurementById(st, id).value, body))
    // A failing or schema-refused save of an owned record is the catch's 500.
    ensures !FailsAt(fault, 0) && MeasurementById(st, id).Some?
            && MeasurementById(st, id).value.patientId == user.userId
            && (FailsAt(fault, 1) || !MeasurementValid(Merge(MeasurementById(st, id).value, body))) ==>
      r == Reply(Error(500, ServerErrorMsg), st)
    ensures r.response.status == 200 ==>
      && MeasurementById(st, id).Some? && MeasurementById(st, id).value.patientId == user.userId
      && r.response.body == MeasurementBody(Merge(MeasurementById(st, id).value, body))
      && r.store == st.(measurements := ReplaceMeasurement(st.measurements, Merge(MeasurementById(st, id).value, body)))
    ensures r.response.status != 200 ==> r.store == st
    ensures r.response.status in {200, 403, 404, 500}
  {
    if FailsAt(fault, 0) then Reply(Error(500, ServerErrorMsg), st)
    else match MeasurementById(st, id)
      case None => Reply(Error(404, NoMeasurementMsg), st)
      case Some(m) =>
        if m.patientId != user.userId then Reply(Error(403, ForbiddenMsg), st)
        else
          var merged := Merge(m, body);
          if FailsAt(fault, 1) || !MeasurementValid(merged) then Reply(Error(500, ServerErrorMsg), st)
          else Reply(Response(200, MeasurementBody(merged)),
                     st.(measurements := ReplaceMeasurement(st.measurements, merged)))
  }

  /** With unique ids, deleting by id removes exactly the one record with that
      id and keeps every other record in order. */
  lemma {:induction false} DeleteRemovesExactlyOne(ms: seq<Measurement>, k: nat)
    requires UniqueBy(ms, MeasurementKey)
    requires k < |ms|
    ensures DeleteMeasurementById(ms, ms[k].id) == ms[..k] + ms[k + 1..]
  {
    var keep := (m: Measurement) => m.id != ms[k].id;
    assert ms == ms[..k] + [ms[k]] + ms[k + 1..];
    forall y | y in ms[..k] ensures keep(y) {
      var j :| 0 <= j < k && ms[j] == y;
    }
    forall y | y in ms[k + 1..] ensures keep(y) {
      var j :| k < j < |ms| && ms[j] == y;
    }
    FilterDropsOne(ms[..k], ms[k], ms[k + 1..], keep);
  }

  /** Under `PUT`, a reading of 0 replaces the stored value while a date of 0
      (falsy) keeps the stored date. */
  lemma ZeroOverwritesReadingsButNotDate(m: Measurement, body: RequestBody)
    requires body.pulse == Some(0) && body.date == Some(0)
    ensures Merge(m, body).pulse == Some(0)
    ensures Merge(m, body).date == m.date
  {
  }

  /** The merge keeps a date on a stored measurement, so `PUT` never fails
      the schema's required date. */
  lemma MergeKeepsDate(m: Measurement, body: RequestBody)
    requires MeasurementValid(m)
    ensures MeasurementValid(Merge(m, body))
    ensures Merge(m, body).date.value == (if TruthyNum(body.date) then body.date.value else m.date.value)
  {
  }

  /** On a well-formed store the schema never refuses an update: an owned
      measurement is updated unless a database operation fails. */
  lemma UpdateSucceedsOnOwnedRecord(user: AuthUser, id: Id, body: RequestBody, st: Store, fault: Fault)
    requires Wf(st)
    ensures Update(user, id, body, st, fault).response.status == 200 <==>
      && !FailsAt(fault, 0) && !FailsAt(fault, 1)
      && MeasurementById(st, id).Some? && MeasurementById(st, id).value.patientId == user.userId
  {
    if MeasurementById(st, id).Some? {
      var m := MeasurementById(st, id).value;
      var k :| 0 <= k < |st.measurements| && st.measurements[k] == m;
      MergeKeepsDate(m, body);
    }
  }

  /** Creating, deleting and updating measurements keep the store well
      formed (a new measurement needs an id no stored one has). */
  lemma CreatePreservesWf(user: Option<AuthUser>, body: RequestBody, newId: Id, st: Store, fault: Fault)
    requires Wf(st)
    requires forall i :: 0 <= i < |st.measurements| ==> st.measurements[i].id != newId
    ensures Wf(Create(user, body, newId, st, fault).store)
  {
    if Create(user, body, newId, st, fault).response.status == 201 {
      WfAppendMeasurement(st, NewMeasurement(newId, user.value.userId, body));
    }
  }

  lemma DeletePreservesWf(user: AuthUser, id: Id, st: Store, fault: Fault)
    requires Wf(st)
    ensures Wf(Delete(user, id, st, fault).store)
  {
    if Delete(user, id, st, fault).response.status == 200 {
      WfFilterMeasurements(st, (m: Measurement) => m.id != id);
    }
  }

  lemma UpdatePreservesWf(user: AuthUser, id: Id, body: RequestBody, st: Store, fault: Fault)
    requires Wf(st)
    ensures Wf(Update(user, id, body, st, fault).store)
  {
    if Update(user, id, body, st, fault).response.status == 200 {
      WfReplaceMeasurement(st, Merge(MeasurementById(st, id).value, body));
    }
  }
}

=== FILE: middleware.dfy ===
/** The `authenticate` middleware: take the bearer token out of the
    `Authorization` header, verify it, and either answer 401 or pass the
    request on with `req.user` set. It reads no store. */
module Middleware {
  import opened Common
  import opened Models
  import opened Tokens
  import opened Http

  const BearerPrefix: string := "Bearer "

  /** `pat` occurs in `s` at position `i`. */
  predicate OccursAt(s: string, pat: string, i: int) {
    0 <= i && i + |pat| <= |s| && s[i..i + |pat|] == pat
  }

  /** The first position at or after `from` where `pat` occurs in `s`. */
  function FirstOccurrence(s: string, pat: string, from: nat): (r: Option<nat>)
    ensures r.Some? ==> from <= r.value && OccursAt(s, pat, r.value)
    ensures r.Some? ==> forall j :: from <= j < r.value ==> !OccursAt(s, pat, j)
    ensures r.None? ==> forall j :: from <= j ==> !OccursAt(s, pat, j)
    decreases |s| - from
  {
    if from + |pat| > |s| then None
    else if s[from..from + |pat|] == pat then Some(from)
    else FirstOccurrence(s, pat, from + 1)
  }

  /** `header.replace('Bearer ', '')`: a string pattern makes JavaScript
      remove only the first occurrence, wherever it is. */
  function StripBearer(header: string): (token: string)
    ensures (forall j :: !OccursAt(header, BearerPrefix, j)) ==> token == header
    ensures forall i :: OccursAt(header, BearerPrefix, i)
                     && (forall j :: 0 <= j < i ==> !OccursAt(header, BearerPrefix, j))
                     ==> token == header[..i] + header[i + |BearerPrefix|..]
  {
    match FirstOccurrence(header, BearerPrefix, 0)
    case None => header
    case Some(i) => header[..i] + header[i + |BearerPrefix|..]
  }

  /** The user the middleware attaches: only the subject id, never the role. */
  datatype AuthUser = AuthUser(userId: Id)

  /** Either the middleware answers, or it calls `next` once with `req.user` set. */
  datatype Gate = Respond(response: Response) | Next(user: AuthUser)

  /** The token the middleware sees: absent when there is no header. */
  function BearerToken(header: Option<string>): Option<string> {
    match header
    case None => None
    case Some(h) => Some(StripBearer(h))
  }

  /** `authenticate(req, res, next)`. `secret` is `process.env.JWT_SECRET`;
      jsonwebtoken throws when it is missing or empty. */
  function Authenticate(header: Option<string>, secret: Option<string>, crypto: Crypto): (g: Gate)
    ensures g == Respond(Error(401, MissingTokenMsg)) <==> !TruthyStr(BearerToken(header))
    ensures g == Respond(Error(401, InvalidTokenMsg)) <==>
      && TruthyStr(BearerToken(header))
      && (!TruthyStr(secret) || crypto.verify(BearerToken(header).value, secret.value).None?)
    ensures g.Next? <==>
      && TruthyStr(BearerToken(header)) && TruthyStr(secret)
      && crypto.verify(BearerToken(header).value, secret.value).Some?
    ensures g.Next? ==> g.user.userId == crypto.verify(BearerToken(header).value, secret.value).value.userId
  {
    var token := BearerToken(header);
    if !TruthyStr(token) then
      Respond(Error(401, MissingTokenMsg))
    else if !TruthyStr(secret) then
      Respond(Error(401, InvalidTokenMsg))
    else
      match crypto.verify(token.value, secret.value)
      case None => Respond(Error(401, InvalidTokenMsg))
      case Some(claims) => Next(AuthUser(claims.userId))
  }

  /** `"Bearer " + t` strips to exactly `t`, whatever `t` holds. */
  lemma StripBearerPrefixed(t: string)
    ensures StripBearer(BearerPrefix + t) == t
  {
    var h := BearerPrefix + t;
    assert h[0..|BearerPrefix|] == BearerPrefix;
    assert OccursAt(h, BearerPrefix, 0);
    assert h[|BearerPrefix|..] == t;
  }

  /** A header of exactly "Bearer " carries an empty token, which is reported
      as missing, not as invalid. */
  lemma BearerAloneIsMissingToken(secret: Option<string>, crypto: Crypto)
    ensures Authenticate(Some(BearerPrefix), secret, crypto) == Respond(Error(401, MissingTokenMsg))
  {
    StripBearerPrefixed("");
    assert BearerPrefix + "" == BearerPrefix;
  }

  /** With no header the middleware always answers the missing-token 401. */
  lemma NoHeaderIsMissingToken(secret: Option<string>, crypto: Crypto)
    ensures Authenticate(None, secret, crypto) == Respond(Error(401, MissingTokenMsg))
  {
  }

  /** Without a configured secret every token is rejected as invalid. */
  lemma UnsetSecretRejectsEveryToken(header: Option<string>, secret: Option<string>, crypto: Crypto)
    requires !TruthyStr(secret)
    ensures !Authenticate(header, secret, crypto).Next?
  {
  }

  /** A token login signed with the verifying secret passes, and `req.user`
      carries the signed subject id. */
  lemma SignedTokenAuthenticates(crypto: Crypto, secret: string, claims: Claims)
    requires secret != "" && SignVerifyAgree(crypto, secret)
    ensures Authenticate(Some(BearerPrefix + crypto.sign(claims, secret, TokenLifetimeSeconds)),
                         Some(secret), crypto)
         == Next(AuthUser(claims.userId))
  {
    StripBearerPrefixed(crypto.sign(claims, secret, TokenLifetimeSeconds));
  }
}

=== FILE: models.dfy ===
/** The four MongoDB document kinds and the validity rules their Mongoose
    schemas enforce when a document is saved. Fields a schema marks required
    but that a request may leave out are optional here, so that the rule that
    rejects them can be stated. */
module Models {
  import opened Common

  /** An ObjectId, compared as its string form. */
  type Id = string

  /** An account. `password` holds the bcrypt hash, never the plain text. */
  datatype User = User(id: Id, email: string, password: string, role: string)

  /** A patient profile; `id` is the subject id a patient's token carries. */
  datatype Patient = Patient(
    id: Id,
    userId: Id,
    fullName: Option<string>,
    birthDate: Option<int>,
    birthPlace: Option<string>,
    phone: Option<string>,
    doctorId: Option<Id>)

  /** A doctor profile; `id` is the subject id a doctor's token carries. */
  datatype Doctor = Doctor(id: Id, userId: Id, fullName: Option<string>)

  /** A measurement; dates are timestamps, the numeric readings are JS numbers
      modelled as integers. These are all the fields the schema defines. */
  datatype Measurement = Measurement(
    id: Id,
    patientId: Id,
    date: Option<int>,
    bloodPressure: Option<int>,
    pulse: Option<int>,
    weight: Option<int>,
    bloodSugar: Option<int>)

  const PatientRole: string := "patient"
  const DoctorRole: string := "doctor"

  /** Mongoose's `required` on a String: present and not empty. */
  predicate RequiredStr(v: Option<string>) {
    v.Some? && v.value != ""
  }

  /** JavaScript's `\s`: the white-space and line-terminator characters. */
  predicate IsSpace(c: char) {
    || c == '\t' || c == '\n' || c == '\U{000B}' || c == '\U{000C}' || c == '\r' || c == ' '
    || c == '\U{00A0}' || c == '\U{1680}' || ('\U{2000}' <= c <= '\U{200A}')
    || c == '\U{2028}' || c == '\U{2029}' || c == '\U{202F}' || c == '\U{205F}'
    || c == '\U{3000}' || c == '\U{FEFF}'
  }

  /** `s[i..j]` is a non-empty run of non-space characters (`\S+`). */
  ghost predicate NonSpaceRun(s: string, i: int, j: int) {
    0 <= i < j <= |s| && forall k :: i <= k < j ==> !IsSpace(s[k])
  }

  /** `\S+@\S+\.\S+` matches `s[i..e]`, with the '@' at `a` and the '.' at `d`. */
  ghost predicate EmailMatchAt(s: string, i: int, a: int, d: int, e: int) {
    && NonSpaceRun(s, i, a) && a < |s| && s[a] == '@'
    && NonSpaceRun(s, a + 1, d) && d < |s| && s[d] == '.'
    && NonSpaceRun(s, d + 1, e)
  }

  /** The unanchored pattern `\S+@\S+\.\S+` occurs somewhere in `s`. */
  ghost predicate MatchesEmailPattern(s: string) {
    exists i, a, d, e :: EmailMatchAt(s, i, a, d, e)
  }

  /** No white space strictly between positions `a` and `d`. */
  predicate NoSpaceBetween(s: string, a: int, d: int)
    requires 0 <= a && d <= |s|
  {
    forall k | a < k < d :: !IsSpace(s[k])
  }

  /** `s` has an '@' at `a` preceded by a non-space character, and a '.' at `d`
      after a non-empty non-space run and followed by a non-space character. */
  predicate EmailShapeAt(s: string, a: int, d: int)
    requires 1 <= a && a + 1 < d && d + 1 < |s|
  {
    && !IsSpace(s[a - 1]) && s[a] == '@'
    && NoSpaceBetween(s, a, d)
    && s[d] == '.' && !IsSpace(s[d + 1])
  }

  /** Executable form of the email pattern. The outer runs of the pattern can
      always be shortened to one character, which is why one suffices here. */
  predicate ValidEmail(s: string) {
    exists a, d | 1 <= a && a + 1 < d && d + 1 < |s| :: EmailShapeAt(s, a, d)
  }

  predicate IsAsciiDigit(c: char) {
    '0' <= c <= '9'
  }

  /** The anchored pattern `^[0-9]{9,15}$`. A number it accepts is as long
      in JavaScript as it is here, so the bounds mean the same on both sides. */
  predicate ValidPhone(p: string): (ok: bool)
    ensures ok ==> 9 <= Utf16Length(p) <= 15
    ensures ok ==> forall k | 0 <= k < |p| :: p[k] in "0123456789"
  {
    var ok := 9 <= |p| <= 15 && forall k | 0 <= k < |p| :: IsAsciiDigit(p[k]);
    if ok then
      BmpLengthIsCharCount(p);
      assert forall k | 0 <= k < |p| :: p[k] in "0123456789" by {
        forall k | 0 <= k < |p| ensures p[k] in "0123456789" {
          assert IsAsciiDigit(p[k]);
          DigitIsListed(p[k]);
        }
      }
      ok
    else ok
  }

  lemma DigitIsListed(c: char)
    requires IsAsciiDigit(c)
    ensures c in "0123456789"
  {
    var digits := "0123456789";
    assert digits[c as int - '0' as int] == c;
  }

  /** A string's JavaScript `.length`: UTF-16 code units, two for a
      character outside the Basic Multilingual Plane. Mongoose's `minlength`
      compares this length. */
  function Utf16Length(s: string): (n: nat)
    ensures |s| <= n <= 2 * |s|
  {
    if |s| == 0 then 0
    else Utf16Length(s[..|s| - 1]) + (if s[|s| - 1] as int >= 0x1_0000 then 2 else 1)
  }

  /** Inside the Basic Multilingual Plane one character is one code unit. */
  lemma {:induction false} BmpLengthIsCharCount(s: string)
    requires forall k | 0 <= k < |s| :: (s[k] as int) < 0x1_0000
    ensures Utf16Length(s) == |s|
  {
    if |s| > 0 {
      BmpLengthIsCharCount(s[..|s| - 1]);
    }
  }

  /** Two emoji make a four-unit name: long enough for a three-character
      minimum, although only two characters long. */
  lemma AstralCharactersCountTwice(id: Id, userId: Id)
    ensures |"\U{1F600}\U{1F600}"| == 2
    ensures Utf16Length("\U{1F600}\U{1F600}") == 4
    ensures DoctorValid(Doctor(id, userId, Some("\U{1F600}\U{1F600}")))
  {
    var s := "\U{1F600}\U{1F600}";
    assert s[..1] == "\U{1F600}";
    assert s[..1][..0] == "";
  }

  /** UserSchema: email required and matching the pattern, password required
      with at least 6 characters, role one of the two enum values. Email
      uniqueness is a property of the collection, not of one document. */
  predicate UserValid(u: User) {
    && u.email != "" && ValidEmail(u.email)
    && u.password != "" && Utf16Length(u.password) >= 6
    && (u.role == PatientRole || u.role == DoctorRole)
  }

  /** PatientSchema: every field required, name of at least 3 characters,
      phone matching the digit pattern. */
  predicate PatientValid(p: Patient) {
    && RequiredStr(p.fullName) && Utf16Length(p.fullName.value) >= 3
    && p.birthDate.Some?
    && RequiredStr(p.birthPlace)
    && RequiredStr(p.phone) && ValidPhone(p.phone.value)
    && p.doctorId.Some?
  }

  /** DoctorSchema: name required with at least 3 characters. */
  predicate DoctorValid(d: Doctor) {
    RequiredStr(d.fullName) && Utf16Length(d.fullName.value) >= 3
  }

  /** MeasurementSchema: the date is required; the four readings are optional. */
  predicate MeasurementValid(m: Measurement) {
    m.date.Some?
  }

  /** The executable email check accepts exactly the strings in which the
      pattern occurs. */
  lemma EmailCheckMatchesPattern(s: string)
    ensures ValidEmail(s) <==> MatchesEmailPattern(s)
  {
    if ValidEmail(s) {
      var a, d :| 1 <= a && a + 1 < d && d + 1 < |s| && EmailShapeAt(s, a, d);
      assert EmailMatchAt(s, a - 1, a, d, d + 2);
    }
    if MatchesEmailPattern(s) {
      var i, a, d, e :| EmailMatchAt(s, i, a, d, e);
      assert 1 <= a && a + 1 < d && d + 1 < |s|;
      assert !IsSpace(s[a - 1]) && !IsSpace(s[d + 1]);
      assert EmailShapeAt(s, a, d);
    }
  }

  /** The pattern is unanchored: anything may surround a matching address. */
  lemma EmailPatternIsUnanchored(s: string, prefix: string, suffix: string)
    requires ValidEmail(s)
    ensures ValidEmail(prefix + s + suffix)
  {
    var a, d :| 1 <= a && a + 1 < d && d + 1 < |s| && EmailShapeAt(s, a, d);
    var t := prefix + s + suffix;
    var n := |prefix|;
    forall k | 0 <= k < |s| ensures t[n + k] == s[k] {
      assert t == prefix + (s + suffix);
    }
    forall k | n + a < k < n + d ensures !IsSpace(t[k]) {
      assert t[k] == s[k - n];
    }
    assert t[n + a - 1] == s[a - 1] && t[n + a] == s[a];
    assert t[n + d] == s[d] && t[n + d + 1] == s[d + 1];
    assert EmailShapeAt(t, n + a, n + d);
  }
}

=== FILE: patientroutes.dfy ===
/** The patient router: a doctor's patient list, a patient's own profile, and
    self-service delete and update. Delete and update look up the CALLER's
    record (`findById(req.user.userId)`), answer 404 before comparing the
    path id with the caller, and 403 on a mismatch. Database operations are
    numbered in source order for `fault`. */
module PatientRoutes {
  import opened Common
  import opened Models
  import opened Db
  import opened Http
  import opened Middleware

  /** `.populate('userId', 'email')`. */
  function WithEmail(st: Store, p: Patient): PatientView {
    match UserById(st, p.userId)
    case Some(u) => PatientView(p, Some(u.email))
    case None => PatientView(p, None)
  }

  function WithEmails(st: Store, ps: seq<Patient>): (r: seq<PatientView>)
    ensures |r| == |ps|
    ensures forall i :: 0 <= i < |ps| ==> r[i] == WithEmail(st, ps[i])
  {
    seq(|ps|, i requires 0 <= i < |ps| => WithEmail(st, ps[i]))
  }

  /** Every patient `Patient.find({ doctorId })` lists is stored and assigned
      to the doctor. */
  lemma ListedAreAssigned(st: Store, doctorId: Id)
    ensures forall v :: v in WithEmails(st, PatientsOfDoctor(st, doctorId)) ==>
      v.patient in st.patients && v.patient.doctorId == Some(doctorId)
  {
    var ps := PatientsOfDoctor(st, doctorId);
    var vs := WithEmails(st, ps);
    forall v | v in vs
      ensures v.patient in st.patients && v.patient.doctorId == Some(doctorId)
    {
      var i :| 0 <= i < |vs| && vs[i] == v;
      assert v.patient == ps[i];
    }
  }

  /** Every stored patient assigned to the doctor is listed. */
  lemma AssignedAreListed(st: Store, doctorId: Id)
    ensures forall p :: p in st.patients && p.doctorId == Some(doctorId) ==>
      WithEmail(st, p) in WithEmails(st, PatientsOfDoctor(st, doctorId))
  {
    var ps := PatientsOfDoctor(st, doctorId);
    var vs := WithEmails(st, ps);
    forall p | p in st.patients && p.doctorId == Some(doctorId)
      ensures WithEmail(st, p) in vs
    {
      var k :| 0 <= k < |st.patients| && st.patients[k] == p;
      assert p in ps;
      var i :| 0 <= i < |ps| && ps[i] == p;
      assert vs[i] == WithEmail(st, p);
    }
  }

  /** The doctor has a patient in the list iff some stored patient names them. */
  lemma SomeAssignedIffListed(st: Store, doctorId: Id)
    ensures PatientsOfDoctor(st, doctorId) != [] <==>
      exists i :: 0 <= i < |st.patients| && st.patients[i].doctorId == Some(doctorId)
  {
    var ps := PatientsOfDoctor(st, doctorId);
    if ps != [] {
      assert ps[0] in st.patients;
      var k :| 0 <= k < |st.patients| && st.patients[k] == ps[0];
    }
  }

  /** `GET /doctor`. Operation 0: `Patient.find(...).populate(...)`. */
  function PatientsForDoctor(user: AuthUser, st: Store, fault: Fault): (r: Reply)
    ensures r.store == st
    ensures FailsAt(fault, 0) ==> r.response == Error(500, DoctorPatientsFailedMsg)
    ensures !FailsAt(fault, 0) && PatientsOfDoctor(st, user.userId) == [] ==>
      r.response == Error(404, NoPatientsOfDoctorMsg)
    ensures r.response.status == 200 <==> !FailsAt(fault, 0) && PatientsOfDoctor(st, user.userId) != []
    // The list is exactly the caller's assigned patients, in store order.
    ensures r.response.status == 200 ==>
      && r.response.body.PatientsBody?
      && |r.response.body.patients| == |PatientsOfDoctor(st, user.userId)| > 0
      && forall i :: 0 <= i < |r.response.body.patients| ==>
           r.response.body.patients[i] == WithEmail(st, PatientsOfDoctor(st, user.userId)[i])
           && r.response.body.patients[i].patient.doctorId == Some(user.userId)
    ensures r.response.status in {200, 404, 500}
  {
    if FailsAt(fault, 0) then Reply(Error(500, DoctorPatientsFailedMsg), st)
    else
      var patients := PatientsOfDoctor(st, user.userId);
      if |patients| == 0 then Reply(Error(404, NoPatientsOfDoctorMsg), st)
      else Reply(Response(200, PatientsBody(WithEmails(st, patients))), st)
  }

  /** A doctor's list comes exactly when the read succeeds and some stored
      patient names the caller as doctor; it holds every such patient and no
      other. */
  lemma DoctorSeesExactlyAssigned(user: AuthUser, st: Store, fault: Fault)
    ensures PatientsForDoctor(user, st, fault).response.status == 200 <==>
      !FailsAt(fault, 0) && exists i :: 0 <= i < |st.patients| && st.patients[i].doctorId == Some(user.userId)
    ensures var r := PatientsForDoctor(user, st, fault);
      r.response.status == 200 ==>
      && r.response.body.PatientsBody?
      && (forall v :: v in r.response.body.patients ==>
            v.patient in st.patients && v.patient.doctorId == Some(user.userId))
      && (forall p :: p in st.patients && p.doctorId == Some(user.userId) ==>
            WithEmail(st, p) in r.response.body.patients)
  {
    SomeAssignedIffListed(st, user.userId);
    if !FailsAt(fault, 0) && PatientsOfDoctor(st, user.userId) != [] {
      assert PatientsForDoctor(user, st, fault).response.body.patients
          == WithEmails(st, PatientsOfDoctor(st, user.userId));
      ListedAreAssigned(st, user.userId);
      AssignedAreListed(st, user.userId);
    }
  }

  /** `GET /`. Operation 0: `Patient.findOne({ _id })`. */
  function GetOwn(user: AuthUser, st: Store, fault: Fault): (r: Reply)
    ensures r.store == st
    ensures FailsAt(fault, 0) ==> r.response == Error(500, GetPatientFailedMsg)
    ensures !FailsAt(fault, 0) && PatientById(st, user.userId).None? ==>
      r.response == Error(404, NoPatientMsg)
    ensures r.response.status == 200 <==> !FailsAt(fault, 0) && PatientById(st, user.userId).Some?
    ensures r.response.status == 200 ==>
      r.response.body.PatientBody? && r.response.body.patient.id == user.userId
      && r.response.body.patient in st.patients
    ensures r.response.status in {200, 404, 500}
  {
    if FailsAt(fault, 0) then Reply(Error(500, GetPatientFailedMsg), st)
    else match PatientById(st, user.userId)
      case None => Reply(Error(404, NoPatientMsg), st)
      case Some(p) => Reply(Response(200, PatientBody(p)), st)
  }

  /** The store after the full cascade for patient `id` with account `accountId`. */
  function Cascade(st: Store, id: Id, accountId: Id): Store {
    st.(measurements := DeleteMeasurementsOf(st.measurements, id),
        patients := DeletePatientById(st.patients, id),
        users := DeleteUserById(st.users, accountId))
  }

  /** `DELETE /:id`. Operations: 0 `Patient.findById(caller)`,
      1 `Measurement.deleteMany`, 2 `Patient.findByIdAndDelete`,
      3 `User.findByIdAndDelete`. A failure part-way keeps what was already
      deleted. */
  function DeleteSelf(user: AuthUser, id: Id, st: Store, fault: Fault): (r: Reply)
    // Existence of the caller's own record is checked first, then ownership.
    ensures FailsAt(fault, 0) ==> r == Reply(Error(500, ServerErrorMsg), st)
    ensures !FailsAt(fault, 0) && PatientById(st, user.userId).None? ==>
      r == Reply(Error(404, NoPatientMsg), st)
    ensures !FailsAt(fault, 0) && PatientById(st, user.userId).Some? && id != user.userId ==>
      r == Reply(Error(403, ForbiddenMsg), st)
    ensures r.response.status == 200 <==>
      && PatientById(st, user.userId).Some? && id == user.userId
      && !FailsAt(fault, 0) && !FailsAt(fault, 1) && !FailsAt(fault, 2) && !FailsAt(fault, 3)
    // Success removes the caller's measurements, profile and account, nothing else.
    ensures r.response.status == 200 ==>
      r == Reply(Response(200, MessageBody(PatientDeletedMsg)),
                 Cascade(st, user.userId, PatientById(st, user.userId).value.userId))
    // Part-way failures leave a partial cascade.
    ensures PatientById(st, user.userId).Some? && id == user.userId && !FailsAt(fault, 0) && FailsAt(fault, 1) ==>
      r == Reply(Error(500, ServerErrorMsg), st)
    ensures PatientById(st, user.userId).Some? && id == user.userId && FailsAt(fault, 2) ==>
      r == Reply(Error(500, ServerErrorMsg),
                 st.(measurements := DeleteMeasurementsOf(st.measurements, id)))
    ensures PatientById(st, user.userId).Some? && id == user.userId && FailsAt(fault, 3) ==>
      r == Reply(Error(500, ServerErrorMsg),
                 st.(measurements := DeleteMeasurementsOf(st.measurements, id),
                     patients := DeletePatientById(st.patients, id)))
    ensures r.store.doctors == st.doctors
  {
    if FailsAt(fault, 0) then Reply(Error(500, ServerErrorMsg), st)
    else match PatientById(st, user.userId)
      case None => Reply(Error(404, NoPatientMsg), st)
      case Some(patient) =>
        if id != user.userId then Reply(Error(403, ForbiddenMsg), st)
        else if FailsAt(fault, 1) then Reply(Error(500, ServerErrorMsg), st)
        else
          var st1 := st.(measurements := DeleteMeasurementsOf(st.measurements, id));
          if FailsAt(fault, 2) then Reply(Error(500, ServerErrorMsg), st1)
          else
            var st2 := st1.(patients := DeletePatientById(st.patients, id));
            if FailsAt(fault, 3) then Reply(Error(500, ServerErrorMsg), st2)
            else Reply(Response(200, MessageBody(PatientDeletedMsg)),
                       st2.(users := DeleteUserById(st.users, patient.userId)))
  }

  /** The field merge of `PUT /:id`: every field with `||`, so an absent or
      empty value keeps the stored one. Ids and the doctor are untouched. */
  function MergeProfile(p: Patient, body: RequestBody): (r: Patient)
    ensures r.id == p.id && r.userId == p.userId && r.doctorId == p.doctorId
    ensures r.fullName == OrStr(body.fullName, p.fullName)
    ensures r.phone == OrStr(body.phone, p.phone)
    ensures r.birthPlace == OrStr(body.birthPlace, p.birthPlace)
    ensures r.birthDate == OrNum(body.birthDate, p.birthDate)
  {
    p.(fullName := OrStr(body.fullName, p.fullName),
       phone := OrStr(body.phone, p.phone),
       birthPlace := OrStr(body.birthPlace, p.birthPlace),
       birthDate := OrNum(body.birthDate, p.birthDate))
  }

  /** `PUT /:id`. Operations: 0 `Patient.findById(caller)`, 1 `patient.save`,
      which rejects a merged profile the schema refuses (a bad phone, say). */
  function UpdateSelf(user: AuthUser, id: Id, body: RequestBody, st: Store, fault: Fault): (r: Reply)
    ensures FailsAt(fault, 0) ==> r == Reply(Error(500, ServerErrorMsg), st)
    ensures !FailsAt(fault, 0) && PatientById(st, user.userId).None? ==>
      r == Reply(Error(404, NoPatientMsg), st)
    ensures !FailsAt(fault, 0) && PatientById(st, user.userId).Some? && id != user.userId ==>
      r == Reply(Error(403, ForbiddenMsg), st)
    ensures r.response.status == 200 <==>
      && !FailsAt(fault, 0) && !FailsAt(fault, 1)
      && PatientById(st, user.userId).Some? && id == user.userId
      && PatientValid(MergeProfile(PatientById(st, user.userId).value, body))
    // A failing save, or one the schema refuses (a ValidationError), is the catch's 500.
    ensures !FailsAt(fault, 0) && PatientById(st, user.userId).Some? && id == user.userId
            && (FailsAt(fault, 1) || !PatientValid(MergeProfile(PatientById(st, user.userId).value, body))) ==>
      r == Reply(Error(500, ServerErrorMsg), st)
    ensures r.response.status in {200, 403, 404, 500}
    ensures r.response.status == 200 ==>
      && r.response.body == PatientBody(MergeProfile(PatientById(st, user.userId).value, body))
      && r.store == st.(patients := ReplacePatient(st.patients, MergeProfile(PatientById(st, user.userId).value, body)))
    // Only the caller's own record can change.
    ensures forall i :: 0 <= i < |st.patients| && st.patients[i].id != user.userId ==>
      i < |r.store.patients| && r.store.patients[i] == st.patients[i]
    ensures r.response.status != 200 ==> r.store == st
  {
    if FailsAt(fault, 0) then Reply(Error(500, ServerErrorMsg), st)
    else match PatientById(st, user.userId)
      case None => Reply(Error(404, NoPatientMsg), st)
      case Some(patient) =>
        if id != user.userId then Reply(Error(403, ForbiddenMsg), st)
        else
          var merged := MergeProfile(patient, body);
          if FailsAt(fault, 1) || !PatientValid(merged) then Reply(Error(500, ServerErrorMsg), st)
          else Reply(Response(200, PatientBody(merged)), st.(patients := ReplacePatient(st.patients, merged)))
  }

  /** A successful delete removes only records tied to the caller: every
      measurement, profile and account that survives is untouched, and every
      one that disappears belonged to the caller. */
  lemma DeleteTouchesOnlyCaller(user: AuthUser, id: Id, st: Store, fault: Fault)
    requires DeleteSelf(user, id, st, fault).response.status == 200
    ensures forall m :: m in st.measurements ==>
      (m in DeleteSelf(user, id, st, fault).store.measurements <==> m.patientId != user.userId)
    ensures forall p :: p in st.patients ==>
      (p in DeleteSelf(user, id, st, fault).store.patients <==> p.id != user.userId)
    ensures forall u :: u in st.users ==>
      (u in DeleteSelf(user, id, st, fault).store.users <==> u.id != PatientById(st, user.userId).value.userId)
  {
    assert DeleteSelf(user, id, st, fault).store
        == Cascade(st, user.userId, PatientById(st, user.userId).value.userId);
    DeletesKeepOthers(st, user.userId, PatientById(st, user.userId).value.userId);
  }

  /** An empty or absent field keeps the stored value under `PUT`. */
  lemma EmptyFieldsKeepProfile(p: Patient, body: RequestBody)
    requires !TruthyStr(body.fullName) && !TruthyStr(body.phone) && !TruthyStr(body.birthPlace)
    requires !TruthyNum(body.birthDate)
    ensures MergeProfile(p, body) == p
  {
  }

  /** On a valid stored profile, `PUT` fails validation exactly when a value
      it supplies breaks a schema rule: a short name or a malformed phone.
      An absent or empty value can never blank a required field. */
  lemma MergeFailsOnlyOnSuppliedValues(p: Patient, body: RequestBody)
    requires PatientValid(p)
    ensures PatientValid(MergeProfile(p, body)) <==>
      && (TruthyStr(body.fullName) ==> Utf16Length(body.fullName.value) >= 3)
      && (TruthyStr(body.phone) ==> ValidPhone(body.phone.value))
  {
  }

  /** The cascade keeps the store well formed, including when it stops part-way. */
  lemma DeleteSelfPreservesWf(user: AuthUser, id: Id, st: Store, fault: Fault)
    requires Wf(st)
    ensures Wf(DeleteSelf(user, id, st, fault).store)
  {
    var r := DeleteSelf(user, id, st, fault);
    if r.store != st {
      var st1 := st.(measurements := DeleteMeasurementsOf(st.measurements, id));
      WfFilterMeasurements(st, (m: Measurement) => m.patientId != id);
      var st2 := st1.(patients := DeletePatientById(st.patients, id));
      WfFilterPatients(st1, (p: Patient) => p.id != id);
      if r.response.status == 200 {
        var accountId := PatientById(st, user.userId).value.userId;
        WfFilterUsers(st2, (u: User) => u.id != accountId);
      }
    }
  }

  lemma UpdateSelfPreservesWf(user: AuthUser, id: Id, body: RequestBody, st: Store, fault: Fault)
    requires Wf(st)
    ensures Wf(UpdateSelf(user, id, body, st, fault).store)
  {
    if UpdateSelf(user, id, body, st, fault).response.status == 200 {
      WfReplacePatient(st, MergeProfile(PatientById(st, user.userId).value, body));
    }
  }
}

=== FILE: tokens.dfy ===
/** The cryptography the server calls into, as oracles: bcrypt hashing and
    comparison, and JSON Web Token signing and verification. Expiry and
    signature checks live inside `verify`; nothing here inspects a token. */
module Tokens {
  import opened Common
  import opened Models

  /** The payload login signs: the role-record id (not the account id) and the role. */
  datatype Claims = Claims(userId: Id, role: string)

  /** `hash` stands for `bcrypt.hash(p, 10)` with its salt folded in;
      `sign(claims, secret, seconds)` for `jwt.sign`; `verify(token, secret)`
      for `jwt.verify`, `None` when it throws (bad signature, expired,
      malformed). */
  datatype Crypto = Crypto(
    hash: string -> string,
    sign: (Claims, string, int) -> string,
    verify: (string, string) -> Option<Claims>)

  /** `expiresIn: '1h'`. */
  const TokenLifetimeSeconds: int := 3600

  /** The secret login signs with: `process.env.JWT_SECRET || 'secret'`. */
  function SigningSecret(env: Option<string>): (s: string)
    ensures TruthyStr(env) ==> s == env.value
    ensures !TruthyStr(env) ==> s == "secret"
  {
    if TruthyStr(env) then env.value else "secret"
  }

  /** `bcrypt.compare(password, stored)`: does `stored` hash `password`?
      By construction a password matches its own hash. */
  predicate Compare(crypto: Crypto, password: string, stored: string) {
    crypto.hash(password) == stored
  }

  /** The oracle law the round trip relies on: a token signed with `secret`
      verifies under the same `secret` to the signed claims (within its
      lifetime — the clock is inside the oracle). A signed token, three
      dot-separated segments, is never empty. */
  ghost predicate SignVerifyAgree(crypto: Crypto, secret: string) {
    forall c: Claims ::
      && crypto.sign(c, secret, TokenLifetimeSeconds) != ""
      && crypto.verify(crypto.sign(c, secret, TokenLifetimeSeconds), secret) == Some(c)
  }
}
